=== FILE: README.md ===
# Playback-link aggregator: a Dafny model

This project models the server side of a film-and-anime playback aggregator. A client asks
for a title by its Kinopoisk id, or by a shikimori id written `shiki<digits>`. The server
asks up to ten third-party video providers in parallel. Each provider's reply becomes one
canonical record `"source":{"iframe":"…","translate":"…","quality":"…"}`. The server answers
with one JSON object holding all the records.

Three programs make up the modelled core:

- `backend/kinoserver.py`, the current Sanic server. It covers:
  - the `/cache` handler: shiki resolution, id validation, the block list, dispatch, merge,
    the stats gate and rendering;
  - the ten provider adapters;
  - `format_result`, `cache_kodik`, `search_kinopoisk`, `shiki_info` and `top`.
- `kinoserver.py`, the earlier FastAPI server. It covers its `/cache` aggregation over seven
  providers and its `/search` endpoint.
- `id_parse/parser_kodik.py`, a small Kodik API client. It covers the guarded API call,
  shikimori search and token scraping.

Everything the programs learn from outside becomes a parameter:

- HTTP replies, the GeoIP verdict, the block-list database and the film API;
- which tasks missed their deadline;
- the ranking query of `/top`.

The model is a set of pure functions over those parameters.

Modules, one file each:

| file | module | what it holds |
|---|---|---|
| `wrappers.dfy` | `Wrappers` | `Option` |
| `text.dfy` | `Text` | the Python string semantics the code relies on: `find`, `in`, single-pass `replace`, `strip`, `rstrip(c)`, `join`, `split`, `re.sub(r"[^0-9]", "", …)`, `int()`, `str(int)`, slicing |
| `wire.dfy` | `Wire` | both `format_result`s, a decoder for records, and both renderers (`"{" + ",".join(…) + "}"` with the `},}` cleanup, and the legacy comma loop) |
| `kodik.dfy` | `Kodik` | `get_video_from_kodik`'s de-duplicating loop and `cache_kodik` |
| `adapters.dfy` | `Adapters` | the ten adapters of the current server and their fixed dispatch order |
| `server.dfy` | `Server` | the `/cache` handler: early answers, `gather`, merge, stats gate, rendering |
| `legacy.dfy` | `Legacy` | the earlier server's `/cache` and `/search` |
| `catalog.dfy` | `Catalog` | `search_kinopoisk`, `shiki_info` and `top` of the current server |
| `kodik_parser.dfy` | `KodikParser` | the stand-alone Kodik client |

Behaviour of the code that a reader might not expect, which the model keeps:

- **No 50-record cap on Kodik.** The Kodik adapter does not stop after 50 records. The slot numbering
  `kodik{50 - len(k_iframes)}` simply continues through `kodik0`, `kodik-1` and so on.
- **De-duplication is by substring.** A result is skipped when its title occurs anywhere in
  `str(k_iframes)`, the repr of the records kept so far. A title equal to a part of an
  earlier URL or label is skipped too, and an empty title is always skipped.
- **A non-integer id gets a 500.** It is answered with status 500 and the text `Not int`,
  not with a client error.
- **`shiki` removal is one left-to-right pass.** `replace` removes the word in a single
  pass, so `shshikiiki` still contains `shiki` afterwards.
- **The legacy server can emit a non-JSON body.** An empty bazon result list adds an empty
  entry. Alone it renders as `{,}`. Next to other entries it leaves a stray comma, as in
  `{,"alloha":{…}}`.
- **`shiki_info`'s zero check never fires.** It compares a string with the integer `0`, so
  the id `0` is sent upstream.

## Model

| member | source | states |
|---|---|---|
| Text.FindFromSpec | id_parse/parser_kodik.py:46-47 | `find` gives the least index at or after the start where the pattern occurs, and -1 exactly when there is none |
| Text.ContainsIff | backend/kinoserver.py:120 | `sub in s` holds exactly when some index of `s` starts an occurrence of `sub` |
| Text.ContainsEmpty | backend/kinoserver.py:289 | the empty string is in every string |
| Text.ReplaceAbsent | id_parse/parser_kodik.py:34-35 | `replace` of a pattern that does not occur changes nothing |
| Text.ReplaceSkipsPrefix | backend/kinoserver.py:437 | `replace` copies a prefix in which no occurrence starts and continues after it |
| Text.ReplaceIsSinglePass | backend/kinoserver.py:355 | removing `shiki` from `shshikiiki` leaves `shiki`: one pass, not repeated until stable |
| Text.StripSpec | backend/kinoserver.py:441-448 | `strip` returns a contiguous slice of its input that neither starts nor ends with whitespace, and everything cut is whitespace |
| Text.SeparatorExamples | backend/kinoserver.py:441-448 | `strip()` removes the separator U+001C, but `int()` rejects it |
| Text.StripPadded | backend/kinoserver.py:441-448 | `strip` of `w1 + x + w2` with whitespace `w1`, `w2` and trimmed `x` is `x` |
| Text.StripIdempotent | backend/kinoserver.py:441-448 | stripping twice is stripping once |
| Text.RStripCharSpec | kinoserver.py:92 | `rstrip(',')` removes the longest run of commas at the end and nothing else |
| Text.JoinAppend | backend/kinoserver.py:436 | joining a concatenation is joining each part with one separator in between |
| Text.JoinSplice | kinoserver.py:86-116 | a joined sub-list placed as one element joins to the same text as its elements placed individually |
| Text.SplitJoin | kinoserver.py:121-122 | splitting on a separator undoes joining by it when no part contains the separator |
| Text.DigitsOnlyAppend | backend/kinoserver.py:305 | dropping non-digits distributes over concatenation |
| Text.DigitsOnlyOfDigits | backend/kinoserver.py:305 | a digit string keeps every character |
| Text.DigitsIgnoreShiki | backend/kinoserver.py:479-480 | removing `shiki` before dropping non-digits does not change the digits obtained |
| Text.NatToStringValue | backend/kinoserver.py:292 | the printed form of a natural number reads back as that number |
| Text.IntToStringRoundTrip | backend/kinoserver.py:364 | `int(str(i)) == i` for every integer |
| Text.PaddedDigits | backend/kinoserver.py:364 | `int()` ignores spaces, tabs and line breaks around a digit string and yields its value |
| Text.IntToStringInjective | backend/kinoserver.py:292 | distinct integers print differently |
| Text.NatToStringInjective | backend/kinoserver.py:326 | distinct naturals print differently |
| Wire.RecordText | kinoserver.py:121-122 | the legacy record begins with `"` and ends with `}` |
| Wire.FormatResult | backend/kinoserver.py:441-448 | the current record begins with `"` and ends with `}` |
| Wire.FormatResultStripsFields | backend/kinoserver.py:441-448 | example: a record built from padded fields holds them stripped (the general case is `FormatResultRoundTrip` with `StripPadded`) |
| Wire.RecordRoundTrip | kinoserver.py:121-122 | decoding a record built from quote-free fields gives back exactly those four fields |
| Wire.FormatResultRoundTrip | backend/kinoserver.py:441-448 | decoding a current record gives the four fields stripped, and nothing else changes |
| Wire.RecordClosesOnce | kinoserver.py:121-122 | when no field contains `}`, the record's only `}` is its last character |
| Wire.RecordJoinable | kinoserver.py:121-122 | such a record cannot take part in a `},}` match except at its end |
| Wire.RenderEmpty | backend/kinoserver.py:436-437 | no records render as `{}` in both servers |
| Wire.LegacyBodyTrailingComma | kinoserver.py:113-116 | the legacy loop yields the comma join followed by exactly one comma |
| Wire.ReplaceJoinedClose | backend/kinoserver.py:437 | the `},}` cleanup leaves joined records plus the closing brace unchanged |
| Wire.ReplaceJoinedCommaClose | kinoserver.py:117 | the cleanup turns the legacy trailing `,}` into `}` and changes nothing else |
| Wire.RenderIsJoin | backend/kinoserver.py:436-437 | for records without stray braces, the current body is exactly braces around the comma join |
| Wire.LegacyRenderIsJoin | kinoserver.py:113-117 | the legacy body is the same text: the trailing comma is the only thing removed |
| Wire.ReplaceKeepsDoubleClose | backend/kinoserver.py:437 | the cleanup preserves a final `}}` |
| Wire.RenderClosesCleanly | backend/kinoserver.py:436-437 | when the last entry ends with `}`, the body ends in `}}`, whatever the other entries hold |
| Kodik.KodikRecordsTrace | backend/kinoserver.py:287-298 | each returned list follows the upstream results in order. Each result is either dropped, because its title occurs in the text of the records kept before it, or kept as record number c with slot `kodik{50-c}`, URL `https:`+link and label `KODIK>`+title. There are never more records than results |
| Kodik.KodikFromTrace | backend/kinoserver.py:288-297 | the loop from any point extends a valid trace to a complete one |
| Kodik.TraceCounts | backend/kinoserver.py:288-297 | no result adds more than one record |
| Kodik.KodikSlotsDistinct | backend/kinoserver.py:292 | slot names are pairwise distinct, also past the 50th record |
| Kodik.KodikSlotExamples | backend/kinoserver.py:292 | the first slot is `kodik50` and the 51st is `kodik0` |
| Kodik.EmptyTitleSkipped | backend/kinoserver.py:289-290 | a result with an empty title is always skipped |
| Kodik.KeptTitlesNonEmpty | backend/kinoserver.py:289-297 | every kept result had a non-empty string title |
| Kodik.KodikTitleFails | backend/kinoserver.py:288-301 | one result without a string title, anywhere, makes the whole adapter yield nothing |
| Kodik.KodikWellFormedSucceeds | backend/kinoserver.py:288-298 | when every result has a string title and a link, the adapter yields a list |
| Kodik.KodikRecordsClosed | backend/kinoserver.py:291-297 | every kept record ends with `}` |
| Kodik.ShikiQueryId | backend/kinoserver.py:305 | the shikimori id sent is all digits, and a digit string is sent unchanged |
| Kodik.DigitsHaveNoShiki | backend/kinoserver.py:355 | a digit string does not contain `shiki` |
| Kodik.ShikiPrefixedId | backend/kinoserver.py:353-355 | `shiki` followed by digits asks Kodik for exactly those digits |
| Kodik.CacheKodikEmpty | backend/kinoserver.py:311-335 | no `results`, or an empty list, gives the mirrors page `{}` |
| Kodik.CacheKodikShortCircuit | backend/kinoserver.py:317-319 | the first result carrying a `kinopoisk_id` key decides the answer, whatever was built before it. The results before it need a title, and a link only when their title is new to the loop |
| Kodik.RepeatedTitleNeedsNoLink | backend/kinoserver.py:320-322 | a repeated title without a link is passed over: the mirrors page holds the first result alone |
| Kodik.MirrorSkip | backend/kinoserver.py:320-322 | a title seen before adds no record |
| Kodik.MirrorKeep | backend/kinoserver.py:324-332 | a new title adds the next record, numbered `kodik{n+1}` |
| Kodik.CacheKodikFromTrace | backend/kinoserver.py:317-334 | the loop with `seen` equal to the titles so far completes the trace |
| Kodik.CacheKodikMirrors | backend/kinoserver.py:313-335 | without any `kinopoisk_id`, the page is `{` + comma join + `}`, with exactly one record per distinct title, in upstream order, numbered `kodik1..n` consecutively |
| Adapters.SingleDecodes | backend/kinoserver.py:101-115 | a single-URL adapter answers with one record exactly when it read a URL, and for quote-free text that record decodes to the adapter name, the URL and the label, each stripped |
| Adapters.CollapsFallback | backend/kinoserver.py:69-98 | the mirror is consulted only when the primary fails, and nothing comes back only when both fail |
| Adapters.CdnmoviesGate | backend/kinoserver.py:118-138 | a record comes back exactly when the referer does not mention `github` and the body mentions `iframe`; behind the gate the body is irrelevant |
| Adapters.CdnmoviesNoReferer | backend/kinoserver.py:381 | a missing referer prints as `None`, which does not close the gate |
| Adapters.AllohaMovesHost | backend/kinoserver.py:149-153 | `https://host/path` becomes `https://attractive-as.allarknow.online/path` |
| Adapters.AllohaNoUrl | backend/kinoserver.py:149-153 | text without `https://` is unchanged by the rewrite |
| Adapters.AllohaQuoteFree | backend/kinoserver.py:149-153 | the rewrite introduces no `"`, so the record stays decodable |
| Adapters.TurboGate | backend/kinoserver.py:244-275 | a record comes back exactly for a resolved country outside the ten blocked codes and a reachable page; a blocked country never yields one |
| Adapters.TurboUnknownCountry | backend/kinoserver.py:254 | a missing ISO code is not blocked |
| Adapters.MarkerGates | backend/kinoserver.py:208-241 | militorys answers exactly when the body mentions `playlist_id`, and videoseed exactly when it mentions `embed`. Beyond that marker, the body does not change militorys' answer |
| Adapters.Dispatch | backend/kinoserver.py:378-389 | exactly ten tasks are dispatched |
| Adapters.DispatchWellFormed | backend/kinoserver.py:378-389 | every adapter's records end with `}` |
| Server.MergeAppend | backend/kinoserver.py:405-415 | merging two halves of the task list is concatenating their merges |
| Server.MergeIsFlatten | backend/kinoserver.py:405-415 | the merge loop agrees with the front-to-back concatenation of every task's records |
| Server.MergeMember | backend/kinoserver.py:405-415 | a record is merged exactly when some task contributed it |
| Server.MergeEmpty | backend/kinoserver.py:405-417 | nothing is merged exactly when no task contributed a record |
| Server.GatherIgnoresLate | backend/kinoserver.py:391-408 | what a late task would have produced has no effect |
| Server.AllLateMergesNothing | backend/kinoserver.py:405-410 | when every task is late, nothing is merged |
| Server.ShikiQuery | backend/kinoserver.py:355 | the id the shiki route asks about is all digits |
| Server.EarlyAnswersIgnoreUpstream | backend/kinoserver.py:349-371 | every answer given before dispatch is independent of providers, deadlines, referer and film lookup, and records no stats |
| Server.MissingIdIsEmpty | backend/kinoserver.py:349-352 | no `kinopoisk` field gives `{}` |
| Server.ShikiRoute | backend/kinoserver.py:353-362 | mirrors page: that page is the answer. Failed lookup: `{}`. Null id: an unhandled error. Found id: the request continues with that id |
| Server.PlainIdSkipsShiki | backend/kinoserver.py:353-364 | an id without the prefix goes straight to validation, whatever Kodik would say |
| Server.DispatchAnswer | backend/kinoserver.py:405-438 | a valid, unblocked, found id answers 200 with the rendered merge, and stats are recorded under the id exactly when there was a record |
| Server.MergedClosed | backend/kinoserver.py:405-415 | merging well-formed outcomes keeps only closed records |
| Server.DispatchBodyCloses | backend/kinoserver.py:417-438 | the body is `{}` when no stats were recorded, and otherwise ends in `}}` |
| Server.AllLateIsEmpty | backend/kinoserver.py:391-438 | when all ten tasks are late the answer is `{}` with no stats |
| Server.NotIntExample | backend/kinoserver.py:363-371 | `abc` is answered with 500 `Not int` |
| Server.ZeroExample | backend/kinoserver.py:364-366 | `00` parses to 0 and is answered with `{}` |
| Server.PaddedBlockedId | backend/kinoserver.py:363-368 | a blocked id surrounded by whitespace is still answered 403 `Item blocked` |
| Legacy.BazonEntryIsJoin | kinoserver.py:86-95 | the bazon loop plus `rstrip(',')` is the comma join of its records |
| Legacy.Providers | kinoserver.py:43-111 | seven provider slots |
| Legacy.ProvidersFilled | kinoserver.py:43-111 | slot k is filled exactly when provider k answered, in the order iframe.video, apicollaps, videocdn, hdvb, bazon, alloha, voidboost. The voidboost slot also needs a status other than 404 |
| Legacy.ProvidersNamedFirst | kinoserver.py:46-60 | a quote-free answer in slot 0 decodes to a record named `iframe`, and in slot 1 to one named `apicollaps` |
| Legacy.ProvidersNamedMiddle | kinoserver.py:62-84 | a quote-free answer in slot 2 decodes to a record named `videocdn`, and in slot 3 to one named `hdvb` |
| Legacy.ProvidersNamedLast | kinoserver.py:97-111 | a quote-free answer in slot 5 decodes to a record named `alloha`. For a quote-free id, slot 6 decodes to one named `voidboost` |
| Legacy.EntriesSplit | kinoserver.py:45-111 | the entries of two provider lists placed one after the other are the entries of each, in that order |
| Legacy.FailureIsLocal | kinoserver.py:45-111 | a failing provider removes exactly its own entry and leaves all others |
| Legacy.FailuresContributeNothing | kinoserver.py:45-111 | failed providers contribute no entry |
| Legacy.AllFailedIsEmpty | kinoserver.py:43-118 | when every provider fails, the body is `{}` |
| Legacy.VoidboostGate | kinoserver.py:105-111 | voidboost is added exactly when its embed page did not answer 404, and its record decodes to that page |
| Legacy.EmptyBazonEntry | kinoserver.py:86-95 | an empty bazon list still adds one entry, the empty string |
| Legacy.EmptyBazonBody | kinoserver.py:86-118 | alone, that entry renders as `{,}` |
| Legacy.DatedFilmsSpec | kinoserver.py:148-150 | the year filter keeps only input films with a year other than `None`/`'None'`/`'null'`, keeps every such film, and never lengthens the list |
| Legacy.KeywordMoviesAreDated | kinoserver.py:148-157 | the keyword loop succeeds exactly when every dated film has a name, and then returns the dated films formatted in order |
| Legacy.SearchFallsBack | kinoserver.py:128-162 | the search falls back to the official API exactly when the keyword request raised or a dated film has no name. A failed by-id lookup never causes it |
| Legacy.ByIdComesFirst | kinoserver.py:133-157 | for a digit query the by-id film leads the answer; otherwise only the keyword results appear |
| Legacy.TitleExamples | kinoserver.py:139-157 | title format `Name (year) TYPE`; with no Russian name the English one is used, and a missing year prints as `None` |
| Catalog.DisplayNameSpec | backend/kinoserver.py:461 | the name is one of the three names. It is truthy exactly when some name is, and then it is the first truthy one in the order Russian, English, original. Otherwise it is the original name, whatever that holds |
| Catalog.SearchKeepsDatedFilms | backend/kinoserver.py:451-471 | raises exactly when a dated film has no printable name. Otherwise there is one movie per dated film, in order. Each carries the film's id and poster, and its title is the display name followed by ` (year)` |
| Catalog.TitleEndsWithYear | backend/kinoserver.py:461-462 | a printed title ends with the year in brackets |
| Catalog.DisplayNameExamples | backend/kinoserver.py:458-467 | an empty Russian name falls through to the English one; no usable name makes the search raise |
| Catalog.ShikiInfoId | backend/kinoserver.py:476-483 | an accepted id is a non-empty digit string |
| Catalog.ShikiInfoAsksDigits | backend/kinoserver.py:476-487 | `shiki` followed by digits asks for exactly those digits, `0` included |
| Catalog.ShikiInfoFirstResult | backend/kinoserver.py:494-506 | the card describes the first result only, and its `name_ru` is present exactly when that result's title is a string |
| Catalog.ShikiInfoNeedsId | backend/kinoserver.py:476-483 | without a usable id the answer is a message, whatever the reply |
| Catalog.RelabelIdempotent | backend/kinoserver.py:554-570 | no label is itself a film-type key, so relabelling twice is relabelling once |
| Catalog.ReplaceValuesShape | backend/kinoserver.py:562-573 | the walk keeps every dict, tuple and list shape, same keys in the same order and every non-string leaf. Each string leaf that is a film-type key becomes its label and every other string is kept, so no film-type key is left behind |
| Catalog.ReplaceValuesExample | backend/kinoserver.py:562-573 | example: `["FilmType.FILM", "abc"]` becomes `["🎬Фильм", "abc"]` |
| Catalog.ReplaceValuesFixes | backend/kinoserver.py:562-571 | a value without film-type keys comes through unchanged |
| Catalog.ReplaceValuesIdempotent | backend/kinoserver.py:562-573 | applying the walk twice is applying it once |
| Catalog.TopAnswers | backend/kinoserver.py:530-575 | for a non-empty window name: an unknown window answers `null`. A known one answers the ranking for the mapped filter in its own shape, with every film-type key replaced by its label and every other string kept. `movie`, `series` and `all` map as the code says |
| KodikParser.TokenOfScraped | id_parse/parser_kodik.py:7-8 | with no token given, the client uses the token quoted after the first `token=` of the player script |
| KodikParser.ApiCallCarriesToken | id_parse/parser_kodik.py:10-16 | the posted form carries the token and every other payload member unchanged |
| KodikParser.ApiRequestFilters | id_parse/parser_kodik.py:10-22 | the body is returned exactly when there is a token, the status is 200, and the body decodes with non-empty results. Decoding raises exactly on a 200 with an undecodable body |
| KodikParser.FirstKinopoiskSpec | id_parse/parser_kodik.py:37-38 | the answer is the first truthy `kinopoisk_id`, nothing before it was truthy, and `None` means none was |
| KodikParser.SearchByIdAnswers | id_parse/parser_kodik.py:32-38 | `search_by_id` raises exactly on a 200 whose body does not decode. Without a token, on another status, or with no `results` it answers `None`. Otherwise it answers the first truthy `kinopoisk_id` of the results, with nothing truthy before it, and `None` exactly when no result has one |
| KodikParser.SearchCallPayload | id_parse/parser_kodik.py:24-36 | `shiki<digits>` posts exactly the digits, the limit, `with_material_data` and the token |
| KodikParser.SearchIdIsReplace | id_parse/parser_kodik.py:34-35 | the guarded removal equals an unconditional `replace` |
| KodikParser.TokenStart | id_parse/parser_kodik.py:46 | the token starts seven characters after the first occurrence of `token=`; with no occurrence it starts at index 6 |
| KodikParser.GetTokenQuoted | id_parse/parser_kodik.py:40-47 | a quoted token after the first `token=` comes back exactly |
| KodikParser.GetTokenNoMarker | id_parse/parser_kodik.py:46-47 | without `token=` the slice starts at index 6 |
| KodikParser.GetTokenNoQuote | id_parse/parser_kodik.py:46-47 | without a closing quote the slice stops one character before the end |
| KodikParser.GetTokenNoMarkerExample | id_parse/parser_kodik.py:46-47 | `abcdefgh` yields `g` |
| KodikParser.GetTokenUnclosedExample | id_parse/parser_kodik.py:46-47 | `token="abc` yields `ab` |

## Left out

- I/O is not modelled: HTTP clients, the Redis/SQLite response caches, `async`
  scheduling, logging, CORS and static files. Each reply, and each deadline a task missed,
  is a parameter instead.
- The block-list database is a `set<int>` parameter, and the stats insert is reduced to the
  id it would record. The film API is reduced to whether it found the film: an exception
  there is unhandled.
- The GeoIP reader is a `GeoLookup` parameter. The client address it is given is not
  modelled.
- Exceptions in the `gather` results other than `TimeoutError` are not modelled. The
  adapters catch the errors of their requests. Errors raised while opening a session are
  not modelled, for example by `get_video_from_collaps`, which opens its `CachedSession`
  outside its `try`.
- Python `repr` escaping is not modelled. `Kodik.ListRepr` quotes each record in single
  quotes without escaping. Titles or URLs containing `'` or `\` would be printed
  differently by Python.
- Whitespace is modelled for ASCII only:
  - `strip` removes space, tab, the line breaks and the separators U+001C to U+001F;
  - `int()` skips the same characters except the separators, which make it fail;
  - non-ASCII whitespace such as U+0085 or U+00A0, which Python also skips in both, is
    not modelled.
- Only ASCII digits count for `isdigit`/`isnumeric` and `int()`. Python also accepts other
  Unicode digits.
- JSON numbers in upstream replies are not modelled: a field is missing, `null` or a string.
  The code behaves differently on a number. For example, a Kodik result whose `title` is a
  number makes `in str(k_iframes)` raise, so the Kodik adapter gives no records. A
  `kinopoisk_id` that is a number is not modelled either.
- `/search` URL-unquotes its term, and the model receives the term already unquoted.
- The legacy search's fallback to the `nkinopoiskpy` package is reduced to a `Fallback`
  answer, because that library is not part of this model.
- The legacy iframe.video hit's quality is ignored, as the code ignores it: it passes `''`.
- `kinopoisk_info`, `get_pl_list_1`, `get_dons`, `check_cache` and the exception page are
  not modelled. They forward database or film-API data without logic of their own.
- The web front end (`src/`, `vite.config.js`) is not modelled.
- `KodikParser.ApiRequestFilters`: only a list-valued `results` counts as truthy. A
  non-empty dict or string there would also pass Python's check.

=== FILE: adapters.dfy ===
/**
  The ten provider adapters of the modern server, each reduced to what it does with the
  upstream reply it gets: every adapter either yields one record, a list of records
  (Kodik) or nothing, because each one catches its own errors and returns `None`.
 */
module Adapters {
  import opened Wrappers
  import opened Text
  import opened Wire
  import opened Kodik

  /** What one dispatched task comes back with once `gather` returns: `None`, the timeout
      exception raised by `wait_for`, one record, or Kodik's list of records. */
  datatype Outcome = NoResult | TimedOut | One(record: string) | Many(records: seq<string>)

  /** The records an outcome contributes to the merge. A falsy result (an empty string or
      an empty list) contributes nothing, like `None` and a timeout. */
  function Records(o: Outcome): (r: seq<string>)
    ensures o.Many? ==> r == o.records
    ensures o.NoResult? || o.TimedOut? ==> r == []
  {
    match o
    case NoResult => []
    case TimedOut => []
    case One(s) => if s == "" then [] else [s]
    case Many(ss) => ss
  }

  /** A single-URL adapter answers with one record exactly when it read a URL, and that
      record decodes back to the adapter's name, the URL and the label, stripped. */
  lemma SingleDecodes(source: string, translate: string, url: Option<string>)
    requires '"' !in source && '"' !in translate
    requires url.Some? ==> '"' !in url.value
    ensures Single(source, translate, url).One? <==> url.Some?
    ensures url.Some? ==>
      DecodeRecord(Single(source, translate, url).record) == Some(Record(Strip(source), Strip(url.value), Strip(translate), ""))
  {
    if url.Some? {
      FormatResultRoundTrip(source, url.value, translate, "");
      assert Strip("") == "";
    }
  }

  /** An adapter whose reply yields one iframe URL: the URL read from the upstream JSON, or
      `None` when anything on the way raised (network, error status, body that is not
      JSON, missing key, empty list, or a value whose `.strip()` fails). */
  function Single(source: string, translate: string, url: Option<string>): (o: Outcome)
    ensures o.NoResult? <==> url.None?
    ensures url.Some? ==> o == One(FormatResult(source, url.value, translate, ""))
  {
    match url
    case None => NoResult
    case Some(u) => One(FormatResult(source, u, translate, ""))
  }

  // ---------------------------------------------------------------- collaps

  /** Collaps is asked first; its mirror (`api.bhcesh.me`) only when the first request or
      its reading fails. Both fill the `collaps` slot. */
  function Collaps(primary: Option<string>, mirror: Option<string>): (o: Outcome)
  {
    if primary.Some? then Single("collaps", "COLLAPS", primary) else Single("collaps", "COLLAPS", mirror)
  }

  /** The mirror matters only when the primary fails, and the adapter yields nothing only
      when both fail. */
  lemma CollapsFallback(primary: Option<string>, mirror: Option<string>, mirror2: Option<string>)
    ensures primary.Some? ==> Collaps(primary, mirror) == Collaps(primary, mirror2)
    ensures Collaps(primary, mirror).NoResult? <==> primary.None? && mirror.None?
    ensures primary.None? && mirror.Some? ==>
      Collaps(primary, mirror) == One(FormatResult("collaps", mirror.value, "COLLAPS", ""))
  {
  }

  /** Lumex fills the `videocdn` slot (the provider's former name). */
  function Lumex(url: Option<string>): Outcome
  {
    Single("videocdn", "LUMEX", url)
  }

  // ---------------------------------------------------------------- cdnmovies

  /** `str(request.headers.get("referer"))`: a missing header prints as `None`. */
  function RefererText(referer: Option<string>): (r: string)
    ensures referer.Some? ==> r == referer.value
  {
    match referer
    case None => "None"
    case Some(h) => h
  }

  /** The page cdnmovies is embedded from for an id. */
  function CdnmoviesUrl(kinopoisk: string): string
  {
    "https://ugly-turkey.cdnmovies-stream.online/kinopoisk/" + kinopoisk + "/iframe?domain=reyohoho.github.io"
  }

  /** cdnmovies: no request at all when the referer mentions `github`; otherwise the body of
      the contents API (`None` when the request failed) must mention `iframe`. */
  function Cdnmovies(kinopoisk: string, referer: Option<string>, body: Option<string>): Outcome
  {
    if Contains(RefererText(referer), "github") then NoResult
    else if body.Some? && Contains(body.value, "iframe") then
      One(FormatResult("cdnmovies", CdnmoviesUrl(kinopoisk), "CDNMOVIES", ""))
    else NoResult
  }

  /** A record comes back exactly when the referer gate is open and the body has the
      marker; behind the gate the reply is never looked at. */
  lemma CdnmoviesGate(kinopoisk: string, referer: Option<string>, body: Option<string>, body2: Option<string>)
    ensures Cdnmovies(kinopoisk, referer, body).One? <==>
      !Contains(RefererText(referer), "github") && body.Some? && Contains(body.value, "iframe")
    ensures Contains(RefererText(referer), "github") ==>
      Cdnmovies(kinopoisk, referer, body) == Cdnmovies(kinopoisk, referer, body2)
  {
  }

  /** A request without a referer is not gated: `"None"` does not mention `github`. */
  lemma CdnmoviesNoReferer()
    ensures !Contains(RefererText(None), "github")
  {
    FindFromSpec("None", "github", 0);
  }

  // ---------------------------------------------------------------- alloha

  /** The host every alloha iframe is moved to. */
  const AllohaHost: string := "https://attractive-as.allarknow.online"

  /** The end of the run of non-`/` characters starting at `i`. */
  function RunEnd(s: string, i: nat): (r: nat)
    requires i <= |s|
    ensures i <= r <= |s|
    decreases |s| - i
  {
    if i < |s| && s[i] != '/' then RunEnd(s, i + 1) else i
  }

  /** The pattern `https://[^/]+` matches at index 0 of `s`. */
  predicate UrlAtStart(s: string)
  {
    OccursAt(s, "https://", 0) && 8 < |s| && s[8] != '/'
  }

  /** `re.sub(r"https://[^/]+", AllohaHost, s)`: scanning left to right, each match (the
      scheme and the longest non-empty run of non-`/` characters after it) is replaced and
      scanning resumes after it; any other character is copied. */
  function AllohaRewrite(s: string): string
    decreases |s|
  {
    if |s| == 0 then ""
    else if UrlAtStart(s) then AllohaHost + AllohaRewrite(s[RunEnd(s, 8)..])
    else [s[0]] + AllohaRewrite(s[1..])
  }

  /** alloha: the `iframe` member (`None` when anything on the way raised), moved to
      `AllohaHost`. */
  function Alloha(iframe: Option<string>): Outcome
  {
    match iframe
    case None => NoResult
    case Some(u) => One(FormatResult("alloha", AllohaRewrite(u), "ALLOHA", ""))
  }

  /** Text without `https://` comes through the rewrite unchanged. */
  lemma {:induction false} AllohaNoUrl(s: string)
    requires forall i: nat :: !OccursAt(s, "https://", i)
    ensures AllohaRewrite(s) == s
    decreases |s|
  {
    if |s| > 0 {
      assert !OccursAt(s, "https://", 0);
      forall i: nat
        ensures !OccursAt(s[1..], "https://", i)
      {
        if i + 8 <= |s| - 1 {
          assert s[1..][i..i + 8] == s[i + 1..i + 1 + 8];
          assert !OccursAt(s, "https://", i + 1);
        }
      }
      AllohaNoUrl(s[1..]);
    }
  }

  /** A run of non-`/` characters is consumed up to the `/` (or end) that follows it. */
  lemma {:induction false} RunEndSkips(s: string, i: nat, h: string, p: string)
    requires s == "https://" + h + p && 8 <= i <= 8 + |h|
    requires '/' !in h && (|p| == 0 || p[0] == '/')
    ensures RunEnd(s, i) == 8 + |h|
    decreases |s| - i
  {
    if i < 8 + |h| {
      assert s[i] == h[i - 8];
      RunEndSkips(s, i + 1, h, p);
    } else if |p| > 0 {
      assert s[i] == p[0];
    }
  }

  /** `https://host/path` becomes `https://attractive-as.allarknow.online/path`: the host is
      replaced and the path, free of further URLs, is kept. */
  lemma AllohaMovesHost(h: string, p: string)
    requires |h| > 0 && '/' !in h
    requires |p| == 0 || p[0] == '/'
    requires forall i: nat :: !OccursAt(p, "https://", i)
    ensures AllohaRewrite("https://" + h + p) == AllohaHost + p
  {
    var s := "https://" + h + p;
    assert s[..8] == "https://";
    assert s[8] == h[0];
    RunEndSkips(s, 8, h, p);
    assert s[8 + |h|..] == p;
    AllohaNoUrl(p);
  }

  /** The rewrite never introduces a double quote, so it keeps a record decodable. */
  lemma {:induction false} AllohaQuoteFree(s: string)
    requires '"' !in s
    ensures '"' !in AllohaRewrite(s)
    decreases |s|
  {
    if |s| > 0 {
      if UrlAtStart(s) {
        var rest := s[RunEnd(s, 8)..];
        assert forall c :: c in rest ==> c in s;
        AllohaQuoteFree(rest);
      } else {
        assert forall c :: c in s[1..] ==> c in s;
        AllohaQuoteFree(s[1..]);
      }
    }
  }

  // ---------------------------------------------------------------- turbo

  /** The countries the turbo player is withheld from. */
  const TurboBlocked: set<string> := {"AU", "CA", "FR", "DE", "NL", "ES", "TR", "GB", "US", "JP"}

  /** The GeoIP step: the database could not be read or the address not resolved (either
      way the adapter ends in its handler), or the country's ISO code, possibly missing. */
  datatype GeoLookup = GeoFailed | Country(iso: Option<string>)

  /** The turbo player page for an id. */
  function TurboUrl(kinopoisk: string): string
  {
    "https://4f463c79.obrut.show/embed/IDN/kinopoisk/" + kinopoisk
  }

  /** turbo: nothing when the GeoIP step fails (the reply variable is then unbound and the
      handler catches the `UnboundLocalError`) or the country is blocked; otherwise a record when
      the player page answers with a success status (`reachable`). */
  function Turbo(kinopoisk: string, geo: GeoLookup, reachable: bool): Outcome
  {
    match geo
    case GeoFailed => NoResult
    case Country(iso) =>
      if iso.Some? && iso.value in TurboBlocked then NoResult
      else if reachable then One(FormatResult("turbo", TurboUrl(kinopoisk), "TURBO", ""))
      else NoResult
  }

  /** A record comes back exactly for a resolved, non-blocked country and a reachable page. */
  lemma TurboGate(kinopoisk: string, geo: GeoLookup, reachable: bool)
    ensures Turbo(kinopoisk, geo, reachable).One? <==>
      geo.Country? && !(geo.iso.Some? && geo.iso.value in TurboBlocked) && reachable
    ensures geo.Country? && geo.iso.Some? && geo.iso.value in TurboBlocked ==>
      forall r :: Turbo(kinopoisk, geo, r) == NoResult
  {
  }

  /** An unknown country is not blocked. */
  lemma TurboUnknownCountry(kinopoisk: string)
    ensures Turbo(kinopoisk, Country(None), true).One?
  {
  }

  // ---------------------------------------------------------------- the rest

  /** Kodik: the list of records, which may be empty, or nothing when the loop raised. */
  function KodikOutcome(reply: Option<seq<KodikResult>>): Outcome
  {
    match KodikRecords(reply)
    case None => NoResult
    case Some(rs) => Many(rs)
  }

  /** vibix: the `iframe_url` member of the reply object. */
  function Vibix(url: Option<string>): Outcome
  {
    Single("vibix", "VIBIX", url)
  }

  /** videoseed: the URL the request was finally redirected to (`None` when the request
      failed); only an `embed` page yields a record, and that page is the record's URL. */
  function Videoseed(finalUrl: Option<string>): Outcome
  {
    if finalUrl.Some? && Contains(finalUrl.value, "embed") then
      One(FormatResult("videoseed", finalUrl.value, "VIDEOSEED", ""))
    else NoResult
  }

  /** hdvb: the `iframe_url` member of the reply list's first element. */
  function Hdvb(url: Option<string>): Outcome
  {
    Single("hdvb", "HDVB", url)
  }

  /** The militorys player page for an id. */
  function MilitorysUrl(kinopoisk: string): string
  {
    "https://militorys.net/van/" + kinopoisk
  }

  /** militorys: a record when the API body (`None` when the request failed) mentions
      `playlist_id`. */
  function Militorys(kinopoisk: string, body: Option<string>): Outcome
  {
    if body.Some? && Contains(body.value, "playlist_id") then
      One(FormatResult("militorys", MilitorysUrl(kinopoisk), "MILITORYS", ""))
    else NoResult
  }

  /** The marker adapters answer exactly on their marker; what else the body holds does
      not matter. */
  lemma MarkerGates(kinopoisk: string, body: string, body2: string)
    ensures Militorys(kinopoisk, Some(body)).One? <==> Contains(body, "playlist_id")
    ensures Videoseed(Some(body)).One? <==> Contains(body, "embed")
    ensures Contains(body, "playlist_id") == Contains(body2, "playlist_id") ==>
      Militorys(kinopoisk, Some(body)) == Militorys(kinopoisk, Some(body2))
  {
  }

  // ---------------------------------------------------------------- dispatch

  /** Everything the ten adapters learn from the outside world for one request. */
  datatype Upstream = Upstream(
    collaps: Option<string>, bhcesh: Option<string>,
    lumex: Option<string>,
    cdnmovies: Option<string>,
    alloha: Option<string>,
    geo: GeoLookup, turboReachable: bool,
    kodik: Option<seq<KodikResult>>,
    vibix: Option<string>,
    videoseed: Option<string>,
    hdvb: Option<string>,
    militorys: Option<string>)

  /** The task list in its fixed order: collaps, lumex, cdnmovies, alloha, turbo, kodik,
      vibix, videoseed, hdvb, militorys. */
  function Dispatch(kinopoisk: string, referer: Option<string>, up: Upstream): (os: seq<Outcome>)
    ensures |os| == 10
  {
    [ Collaps(up.collaps, up.bhcesh),
      Lumex(up.lumex),
      Cdnmovies(kinopoisk, referer, up.cdnmovies),
      Alloha(up.alloha),
      Turbo(kinopoisk, up.geo, up.turboReachable),
      KodikOutcome(up.kodik),
      Vibix(up.vibix),
      Videoseed(up.videoseed),
      Hdvb(up.hdvb),
      Militorys(kinopoisk, up.militorys) ]
  }

  /** An outcome whose records all end with a closing brace. */
  predicate WellFormed(o: Outcome)
  {
    match o
    case One(s) => Closed(s)
    case Many(ss) => forall i :: 0 <= i < |ss| ==> Closed(ss[i])
    case _ => true
  }

  /** The records of a well-formed outcome end with a closing brace. */
  lemma WellFormedRecords(o: Outcome, e: string)
    requires WellFormed(o) && e in Records(o)
    ensures Closed(e)
  {
    if o.Many? {
      var k :| 0 <= k < |o.records| && o.records[k] == e;
    }
  }

  /** The single-URL adapters (lumex, vibix, hdvb) yield closed records. */
  lemma SingleWellFormed(source: string, translate: string, url: Option<string>)
    ensures WellFormed(Single(source, translate, url))
  {
  }

  /** collaps yields a closed record from either host. */
  lemma CollapsWellFormed(primary: Option<string>, mirror: Option<string>)
    ensures WellFormed(Collaps(primary, mirror))
  {
    SingleWellFormed("collaps", "COLLAPS", primary);
    SingleWellFormed("collaps", "COLLAPS", mirror);
  }

  /** cdnmovies yields a closed record. */
  lemma CdnmoviesWellFormed(kinopoisk: string, referer: Option<string>, body: Option<string>)
    ensures WellFormed(Cdnmovies(kinopoisk, referer, body))
  {
  }

  /** turbo yields a closed record. */
  lemma TurboWellFormed(kinopoisk: string, geo: GeoLookup, reachable: bool)
    ensures WellFormed(Turbo(kinopoisk, geo, reachable))
  {
  }

  /** videoseed and militorys yield closed records. */
  lemma MarkerWellFormed(kinopoisk: string, url: Option<string>, body: Option<string>)
    ensures WellFormed(Videoseed(url))
    ensures WellFormed(Militorys(kinopoisk, body))
  {
    if url.Some? && Contains(url.value, "embed") {
      var r := FormatResult("videoseed", url.value, "VIDEOSEED", "");
      assert Videoseed(url) == One(r);
    }
    if body.Some? && Contains(body.value, "playlist_id") {
      var r := FormatResult("militorys", MilitorysUrl(kinopoisk), "MILITORYS", "");
      assert Militorys(kinopoisk, body) == One(r);
    }
  }

  /** alloha yields a closed record whatever the rewrite produced. */
  lemma AllohaWellFormed(iframe: Option<string>)
    ensures WellFormed(Alloha(iframe))
  {
  }

  /** Kodik yields a list of closed records. */
  lemma KodikOutcomeWellFormed(reply: Option<seq<KodikResult>>)
    ensures WellFormed(KodikOutcome(reply))
  {
    KodikRecordsClosed(reply);
  }

  /** Every adapter yields well-formed outcomes. */
  lemma DispatchWellFormed(kinopoisk: string, referer: Option<string>, up: Upstream)
    ensures forall o :: o in Dispatch(kinopoisk, referer, up) ==> WellFormed(o)
  {
    CollapsWellFormed(up.collaps, up.bhcesh);
    SingleWellFormed("videocdn", "LUMEX", up.lumex);
    CdnmoviesWellFormed(kinopoisk, referer, up.cdnmovies);
    TurboWellFormed(kinopoisk, up.geo, up.turboReachable);
    MarkerWellFormed(kinopoisk, up.videoseed, up.militorys);
    AllohaWellFormed(up.alloha);
    KodikOutcomeWellFormed(up.kodik);
    SingleWellFormed("vibix", "VIBIX", up.vibix);
    SingleWellFormed("hdvb", "HDVB", up.hdvb);
  }
}

=== FILE: catalog.dfy ===
/**
  The small catalogue endpoints of the modern server: the keyword search, the shikimori
  card and the top list with its type labels.
 */
module Catalog {
  import opened Wrappers
  import opened Text
  import opened Wire
  import opened Kodik
  import opened Legacy

  // ---------------------------------------------------------------- search

  /** What `/search/<term>` answers: the text for an empty term, the movie list (`[]`
      when empty), or an exception nothing catches. */
  datatype SearchAnswer = NoTerm | Found(movies: seq<Movie>) | SearchCrash

  /** Python's truth test on an optional name: `None` and `""` are false. */
  predicate Truthy(o: Option<string>)
  {
    o.Some? && o.value != ""
  }

  /** `name_ru or name_en or name_original`: the first truthy name, else the last one
      whatever it is. */
  function DisplayName(f: Film): (r: Option<string>)
    ensures Truthy(f.nameRu) ==> r == f.nameRu
    ensures !Truthy(f.nameRu) && Truthy(f.nameEn) ==> r == f.nameEn
    ensures !Truthy(f.nameRu) && !Truthy(f.nameEn) ==> r == f.nameOriginal
  {
    if Truthy(f.nameRu) then f.nameRu else if Truthy(f.nameEn) then f.nameEn else f.nameOriginal
  }

  /** The name followed by the year in brackets. */
  function SearchTitle(f: Film): string
    requires DisplayName(f).Some? && f.year.Some?
  {
    DisplayName(f).value + " (" + f.year.value + ")"
  }

  /** Every film has a name to print. */
  predicate Printable(fs: seq<Film>)
  {
    forall i :: 0 <= i < |fs| ==> DisplayName(fs[i]).Some? && fs[i].year.Some?
  }

  /** The comprehension over the catalogue answer: films with a usable year, each as id,
      title and preview poster. A kept film whose every name is falsy and whose original
      name is `None` makes the concatenation raise. */
  function SearchKinopoisk(term: string, films: seq<Film>): SearchAnswer
  {
    if term == "" then NoTerm
    else
      var kept := DatedFilms(films);
      if Printable(kept) then
        Found(seq(|kept|, i requires 0 <= i < |kept| && Printable(kept) => Movie(kept[i].id, SearchTitle(kept[i]), kept[i].poster)))
      else SearchCrash
  }

  /** Every movie found comes from a dated film of the answer, in order, and carries its
      year in brackets at the end of the title; no dated film is dropped. The search
      raises exactly when a dated film has nothing to print as its name. */
  lemma SearchKeepsDatedFilms(term: string, films: seq<Film>)
    requires term != ""
    ensures SearchKinopoisk(term, films).SearchCrash? <==>
      exists f :: f in DatedFilms(films) && DisplayName(f).None?
    ensures SearchKinopoisk(term, films).Found? ==>
      var ms := SearchKinopoisk(term, films).movies;
      var kept := DatedFilms(films);
      |ms| == |kept| <= |films| &&
      forall i :: 0 <= i < |ms| ==>
        kept[i] in films && Dated(kept[i]) && ms[i].id == kept[i].id &&
        ms[i].poster == kept[i].poster && DisplayName(kept[i]).Some? &&
        ms[i].title == DisplayName(kept[i]).value + " (" + kept[i].year.value + ")" &&
        EndsWith(ms[i].title, " (" + kept[i].year.value + ")")
  {
    DatedFilmsSpec(films);
    var kept := DatedFilms(films);
    if SearchKinopoisk(term, films).Found? {
      var ms := SearchKinopoisk(term, films).movies;
      forall i | 0 <= i < |ms|
        ensures Dated(kept[i]) && EndsWith(ms[i].title, " (" + kept[i].year.value + ")")
      {
        assert kept[i] in kept;
        TitleEndsWithYear(kept[i]);
      }
    }
    if exists f :: f in kept && DisplayName(f).None? {
      var f :| f in kept && DisplayName(f).None?;
      var i :| 0 <= i < |kept| && kept[i] == f;
      assert !Printable(kept);
    }
  }

  /** The `or` chain over the three names: the result is one of them; it is truthy exactly
      when some name is, and then it is the first truthy one; otherwise it is the original
      name. */
  lemma DisplayNameSpec(f: Film)
    ensures var ns := [f.nameRu, f.nameEn, f.nameOriginal]; var r := DisplayName(f);
      && r in ns
      && (Truthy(r) <==> exists k :: 0 <= k < 3 && Truthy(ns[k]))
      && (Truthy(r) ==> exists k :: 0 <= k < 3 && ns[k] == r && forall m :: 0 <= m < k ==> !Truthy(ns[m]))
      && (!Truthy(r) ==> r == f.nameOriginal)
  {
    var ns := [f.nameRu, f.nameEn, f.nameOriginal];
    if Truthy(f.nameRu) {
      assert ns[0] == f.nameRu;
    } else if Truthy(f.nameEn) {
      assert ns[1] == f.nameEn && !Truthy(ns[0]);
    } else {
      assert ns[2] == f.nameOriginal && !Truthy(ns[0]) && !Truthy(ns[1]);
    }
  }

  /** A printed title ends with the year in brackets. */
  lemma TitleEndsWithYear(f: Film)
    requires DisplayName(f).Some? && f.year.Some?
    ensures EndsWith(SearchTitle(f), " (" + f.year.value + ")")
  {
    var n := DisplayName(f).value;
    var y := " (" + f.year.value + ")";
    assert SearchTitle(f) == n + y;
    assert (n + y)[|n + y| - |y|..] == y;
  }

  /** An empty Russian name falls through to the English one; with no usable name and no
      original name the search raises. */
  lemma DisplayNameExamples(year: string)
    ensures SearchTitle(Film(1, Some(""), Some("Heat"), None, Some(year), "FILM", "")) == "Heat (" + year + ")"
    ensures SearchKinopoisk("x", [Film(1, None, Some(""), None, Some(year), "FILM", "")]) == SearchCrash ||
      year == "None" || year == "null"
  {
    var f := Film(1, None, Some(""), None, Some(year), "FILM", "");
    assert DatedFilms([f]) == (if Dated(f) then [f] else []) by { assert [f][1..] == []; }
  }

  // ---------------------------------------------------------------- shiki_info

  /** The first Kodik result's fields as `.get()` reads them: a missing key is `None`. */
  datatype InfoItem = InfoItem(title: Field, titleOrig: Field, otherTitle: Field, year: Field)

  /** The Kodik reply: unusable (raising), or its `results` list, empty when missing. */
  datatype InfoReply = InfoFailed | InfoResults(results: seq<InfoItem>)

  /** What `/shiki_info/<shiki>` answers: a text message, `[]`, the card of the first
      result (each member `null` when absent), or the 500 error raised on failure. */
  datatype InfoAnswer =
    | InfoMessage(text: string)
    | NoResults
    | Card(nameRu: Option<string>, nameEn: Option<string>, slogan: Option<string>, year: Option<string>)
    | InfoError

  /** `.get()` of a member as text: `None` when missing or not a string. */
  function Get(f: Field): (r: Option<string>)
    ensures r.Some? <==> f.Str?
  {
    if f.Str? then Some(f.text) else None
  }

  /** The id asked about: `shiki` removed, then every non-digit; `None` when the path
      carries no `shiki` or nothing numeric is left. */
  function ShikiInfoId(shiki: string): (r: Option<string>)
    ensures r.Some? ==> |r.value| > 0 && AllDigits(r.value)
  {
    if shiki == "" || !Contains(shiki, "shiki") then None
    else
      var id := DigitsOnly(ReplaceAll(shiki, "shiki", ""));
      if id == "" then None else Some(id)
  }

  /** The handler. Its `shiki_id == 0` test compares text with an integer and never holds,
      so a `0` id is asked upstream like any other. */
  function ShikiInfo(shiki: string, reply: InfoReply): InfoAnswer
  {
    if shiki == "" || !Contains(shiki, "shiki") then InfoMessage("No shiki query provided")
    else if ShikiInfoId(shiki).None? then InfoMessage("No valid shiki_id provided")
    else match reply
      case InfoFailed => InfoError
      case InfoResults(rs) =>
        if |rs| == 0 then NoResults
        else Card(Get(rs[0].title), Get(rs[0].titleOrig), Get(rs[0].otherTitle), Get(rs[0].year))
  }

  /** `shiki` followed by digits asks for exactly those digits, `0` included. */
  lemma ShikiInfoAsksDigits(d: string)
    requires |d| > 0 && AllDigits(d)
    ensures ShikiInfoId("shiki" + d) == Some(d)
  {
    ShikiPrefixedId(d);
    DigitsOnlyOfDigits(d);
    assert OccursAt("shiki" + d, "shiki", 0);
    ContainsIff("shiki" + d, "shiki");
  }

  /** The card describes the first result only; later results never matter. */
  lemma ShikiInfoFirstResult(shiki: string, first: InfoItem, rest: seq<InfoItem>, rest2: seq<InfoItem>)
    requires ShikiInfoId(shiki).Some?
    ensures ShikiInfo(shiki, InfoResults([first] + rest)) == ShikiInfo(shiki, InfoResults([first] + rest2))
    ensures ShikiInfo(shiki, InfoResults([first] + rest)).Card?
    ensures ShikiInfo(shiki, InfoResults([first] + rest)).nameRu.Some? <==> first.title.Str?
  {
  }

  /** Without a usable id nothing is asked: the answer is a message whatever the reply. */
  lemma ShikiInfoNeedsId(shiki: string, reply: InfoReply, reply2: InfoReply)
    requires ShikiInfoId(shiki).None?
    ensures ShikiInfo(shiki, reply) == ShikiInfo(shiki, reply2)
    ensures ShikiInfo(shiki, reply).InfoMessage?
  {
  }

  // ---------------------------------------------------------------- top

  /** The JSON value the top query returns, as `replace_values` walks it. */
  datatype Value =
    | VNull
    | VBool(b: bool)
    | VInt(i: int)
    | VStr(s: string)
    | VList(items: seq<Value>)
    | VTuple(elems: seq<Value>)
    | VDict(entries: seq<(string, Value)>)

  /** The labels film types are shown under. */
  const Labels: map<string, string> := map[
    "FilmType.FILM" := "🎬Фильм",
    "FilmType.VIDEO" := "🎬Видео",
    "FilmType.TV_SERIES" := "🎬Сериал",
    "FilmType.MINI_SERIES" := "🎬Мини-сериал",
    "FilmType.TV_SHOW" := "🎬ТВ-шоу"]

  /** `replacements.get(s, s)`. */
  function Relabel(s: string): string
  {
    if s in Labels then Labels[s] else s
  }

  /** No label is itself a key, so relabelling twice is relabelling once. */
  lemma RelabelIdempotent(s: string)
    ensures Relabel(Relabel(s)) == Relabel(s)
    ensures Relabel(s) !in Labels
  {
    if s in Labels {
      assert s[0] == 'F';
      assert Relabel(s)[0] == '🎬';
    }
  }

  /** `replace_values`: dictionaries, tuples and lists rebuilt member by member, strings
      relabelled, every other value kept. */
  function ReplaceValues(v: Value): Value
    decreases v
  {
    match v
    case VStr(s) => VStr(Relabel(s))
    case VList(items) => VList(seq(|items|, i requires 0 <= i < |items| => ReplaceValues(items[i])))
    case VTuple(elems) => VTuple(seq(|elems|, i requires 0 <= i < |elems| => ReplaceValues(elems[i])))
    case VDict(entries) =>
      VDict(seq(|entries|, i requires 0 <= i < |entries| => (entries[i].0, ReplaceValues(entries[i].1))))
    case _ => v
  }

  /** `b` is `a` with every string leaf looked up in the label table: same constructors,
      same lengths, same keys in the same order, same non-string leaves; a film-type key
      becomes its label and any other string is kept. */
  predicate RelabelledCopy(a: Value, b: Value)
    decreases a
  {
    match a
    case VStr(s) => b.VStr? && (s in Labels ==> b.s == Labels[s]) && (s !in Labels ==> b.s == s)
    case VList(xs) => b.VList? && |xs| == |b.items| && forall i :: 0 <= i < |xs| ==> RelabelledCopy(xs[i], b.items[i])
    case VTuple(xs) => b.VTuple? && |xs| == |b.elems| && forall i :: 0 <= i < |xs| ==> RelabelledCopy(xs[i], b.elems[i])
    case VDict(es) =>
      b.VDict? && |es| == |b.entries| &&
      forall i :: 0 <= i < |es| ==> es[i].0 == b.entries[i].0 && RelabelledCopy(es[i].1, b.entries[i].1)
    case _ => a == b
  }

  /** No string leaf is a film-type key. */
  predicate Relabelled(v: Value)
    decreases v
  {
    match v
    case VStr(s) => s !in Labels
    case VList(xs) => forall i :: 0 <= i < |xs| ==> Relabelled(xs[i])
    case VTuple(xs) => forall i :: 0 <= i < |xs| ==> Relabelled(xs[i])
    case VDict(es) => forall i :: 0 <= i < |es| ==> Relabelled(es[i].1)
    case _ => true
  }

  /** The walk keeps the structure and leaves no film-type key behind. */
  lemma {:induction false} ReplaceValuesShape(v: Value)
    ensures RelabelledCopy(v, ReplaceValues(v))
    ensures Relabelled(ReplaceValues(v))
    decreases v
  {
    match v
    case VStr(s) => RelabelIdempotent(s);
    case VList(xs) =>
      forall i | 0 <= i < |xs| ensures RelabelledCopy(xs[i], ReplaceValues(xs[i])) && Relabelled(ReplaceValues(xs[i])) {
        ReplaceValuesShape(xs[i]);
      }
    case VTuple(xs) =>
      forall i | 0 <= i < |xs| ensures RelabelledCopy(xs[i], ReplaceValues(xs[i])) && Relabelled(ReplaceValues(xs[i])) {
        ReplaceValuesShape(xs[i]);
      }
    case VDict(es) =>
      forall i | 0 <= i < |es| ensures RelabelledCopy(es[i].1, ReplaceValues(es[i].1)) && Relabelled(ReplaceValues(es[i].1)) {
        ReplaceValuesShape(es[i].1);
      }
    case _ =>
  }

  /** Example: a key inside a list becomes its label and its neighbour is kept. */
  lemma ReplaceValuesExample()
    ensures ReplaceValues(VList([VStr("FilmType.FILM"), VStr("abc")]))
         == VList([VStr("🎬Фильм"), VStr("abc")])
  {
  }

  /** A value without film-type keys comes through unchanged. */
  lemma {:induction false} ReplaceValuesFixes(v: Value)
    requires Relabelled(v)
    ensures ReplaceValues(v) == v
    decreases v
  {
    match v
    case VStr(s) =>
    case VList(xs) =>
      forall i | 0 <= i < |xs| ensures ReplaceValues(xs[i]) == xs[i] {
        ReplaceValuesFixes(xs[i]);
      }
      assert ReplaceValues(v).items == xs;
    case VTuple(xs) =>
      forall i | 0 <= i < |xs| ensures ReplaceValues(xs[i]) == xs[i] {
        ReplaceValuesFixes(xs[i]);
      }
      assert ReplaceValues(v).elems == xs;
    case VDict(es) =>
      forall i | 0 <= i < |es| ensures ReplaceValues(es[i].1) == es[i].1 {
        ReplaceValuesFixes(es[i].1);
      }
      assert ReplaceValues(v).entries == es;
    case _ =>
  }

  /** Applying the walk twice is applying it once. */
  lemma ReplaceValuesIdempotent(v: Value)
    ensures ReplaceValues(ReplaceValues(v)) == ReplaceValues(v)
  {
    ReplaceValuesShape(v);
    ReplaceValuesFixes(ReplaceValues(v));
  }

  /** The `type` argument as the database query gets it: `movie` and `series` become
      film-type names, `all` lifts the filter, anything else passes through unchanged. */
  function TypeFilter(arg: Option<string>): (r: Option<string>)
    ensures arg.Some? && arg.value !in {"movie", "series", "all"} ==> r == arg
    ensures arg.None? ==> r.None?
  {
    match arg
    case None => None
    case Some(a) =>
      if a == "movie" then Some("FilmType.FILM")
      else if a == "series" then Some("FilmType.TV_SERIES")
      else if a == "all" then None
      else arg
  }

  /** The four windows the statistics can be ranked over. */
  datatype Window = AllTime | Days30 | Days7 | Hours24

  /** The ranking window named by the path; `None` for any other path, which leaves
      `data` at `None`. */
  function WindowOf(period: string): Option<Window>
  {
    if period == "all" then Some(AllTime)
    else if period == "30d" then Some(Days30)
    else if period == "7d" then Some(Days7)
    else if period == "24h" then Some(Hours24)
    else None
  }

  /** What `/top/<type>` answers: the relabelled ranking (`null` for an unknown window),
      or the text message for an empty path. */
  datatype TopAnswer = NoPeriod | TopData(data: Value)

  /** `/top/<type>`: the ranking for a known window under the type filter, with film types
      relabelled; an unknown window answers `null`. The database is the `rank` parameter. */
  function Top(period: string, arg: Option<string>, rank: (Window, Option<string>) -> Value): TopAnswer
  {
    if period == "" then NoPeriod
    else match WindowOf(period)
      case None => TopData(VNull)
      case Some(w) => TopData(ReplaceValues(rank(w, TypeFilter(arg))))
  }

  /** The ranking is asked with the mapped filter and comes back relabelled, in its own
      shape; an unknown window never consults it. */
  lemma TopAnswers(period: string, arg: Option<string>, rank: (Window, Option<string>) -> Value)
    requires period != ""
    ensures WindowOf(period).None? ==> Top(period, arg, rank) == TopData(VNull)
    ensures WindowOf(period).Some? ==>
      var raw := rank(WindowOf(period).value, TypeFilter(arg));
      RelabelledCopy(raw, Top(period, arg, rank).data) && Relabelled(Top(period, arg, rank).data)
    ensures TypeFilter(Some("movie")) == Some("FilmType.FILM")
    ensures TypeFilter(Some("series")) == Some("FilmType.TV_SERIES")
    ensures TypeFilter(Some("all")) == None
  {
    if WindowOf(period).Some? {
      ReplaceValuesShape(rank(WindowOf(period).value, TypeFilter(arg)));
    }
  }
}

=== FILE: kodik.dfy ===
/**
  The two Kodik normalisers of the modern server. The adapter keeps one record per
  upstream result whose title is not already visible in the text of the records kept so
  far, naming slots downward from `kodik50`. The shikimori resolver either hands back the
  first `kinopoisk_id` it meets or renders every distinct title as slots `kodik1..n`.
 */
module Kodik {
  import opened Wrappers
  import opened Text
  import opened Wire

  /** One element of Kodik's `results` array: the members the code reads. */
  datatype KodikResult = KodikResult(title: Field, link: Field, kinopoiskId: Field)

  // ---------------------------------------------------------------- get_video_from_kodik

  /** Python's `str(k_iframes)` for a list of strings free of `'` and `\`: each item in
      single quotes, separated by `, `, inside brackets. */
  function ListRepr(kept: seq<string>): string
  {
    "[" + Join(", ", Quoted(kept)) + "]"
  }

  /** Each item between single quotes, as `repr` prints a string free of `'` and `\`. */
  function Quoted(xs: seq<string>): (r: seq<string>)
    ensures |r| == |xs|
  {
    if |xs| == 0 then [] else ["'" + xs[0] + "'"] + Quoted(xs[1..])
  }

  /** The slot of the k-th kept record (0-based): `f"kodik{50 - len(k_iframes)}"`. */
  function KodikSlot(k: nat): string
  {
    "kodik" + IntToString(50 - k)
  }

  /** A result the loop can format: it has a string title and a link. */
  predicate Formattable(res: KodikResult)
  {
    res.title.Str? && !res.link.Absent?
  }

  /** The record kept for a result when `k` records precede it. */
  function KodikRecord(k: nat, res: KodikResult): string
    requires Formattable(res)
  {
    FormatResult(KodikSlot(k), "https:" + FieldText(res.link), "KODIK>" + res.title.text, "")
  }

  /** `result["title"] in str(k_iframes)` holds for a string title. */
  predicate SkippedBy(res: KodikResult, kept: seq<string>)
  {
    res.title.Str? && Contains(ListRepr(kept), res.title.text)
  }

  /** The loop from result `j` on, with `kept` built so far. `None` is a raised error that
      the adapter's handler turns into `None`: a missing title (`KeyError`), a null title
      (`None in str` is a `TypeError`), or a missing link on a result about to be kept. */
  function KodikFrom(rs: seq<KodikResult>, j: nat, kept: seq<string>): Option<seq<string>>
    requires j <= |rs|
    decreases |rs| - j
  {
    if j == |rs| then Some(kept)
    else
      var res := rs[j];
      if !res.title.Str? then None
      else if SkippedBy(res, kept) then KodikFrom(rs, j + 1, kept)
      else if res.link.Absent? then None
      else KodikFrom(rs, j + 1, kept + [KodikRecord(|kept|, res)])
  }

  /** The adapter: `reply` is the parsed `results` array, or `None` when the request, the
      status, the JSON decoding or the `results` lookup failed. */
  function KodikRecords(reply: Option<seq<KodikResult>>): Option<seq<string>>
  {
    match reply
    case None => None
    case Some(rs) => KodikFrom(rs, 0, [])
  }

  /** Every record the loop keeps ends with a closing brace. */
  lemma {:induction false} KodikFromClosed(rs: seq<KodikResult>, j: nat, kept: seq<string>)
    requires j <= |rs|
    requires forall i :: 0 <= i < |kept| ==> Closed(kept[i])
    ensures KodikFrom(rs, j, kept).Some? ==>
      forall i :: 0 <= i < |KodikFrom(rs, j, kept).value| ==> Closed(KodikFrom(rs, j, kept).value[i])
    decreases |rs| - j
  {
    if j < |rs| {
      var res := rs[j];
      if res.title.Str? {
        if SkippedBy(res, kept) {
          KodikFromClosed(rs, j + 1, kept);
        } else if !res.link.Absent? {
          var e := KodikRecord(|kept|, res);
          assert Closed(e);
          KodikFromClosed(rs, j + 1, kept + [e]);
        }
      }
    }
  }

  /** Every record the adapter returns ends with a closing brace. */
  lemma KodikRecordsClosed(reply: Option<seq<KodikResult>>)
    ensures KodikRecords(reply).Some? ==>
      forall i :: 0 <= i < |KodikRecords(reply).value| ==> Closed(KodikRecords(reply).value[i])
  {
    if reply.Some? {
      KodikFromClosed(reply.value, 0, []);
    }
  }

  /** A test deciding whether a result is dropped given the records kept before it. */
  type SkipTest = (KodikResult, seq<string>) -> bool

  /** How a kept result becomes a record, given how many records precede it. */
  type RecordMaker = (nat, KodikResult) --> string

  /** Result `j` was handled as the loop handles it: with `c = before[j]` records kept
      among the results before it, it was either dropped by `skip` given those records,
      or kept as record number `c`, made by `rec` with rank `c`. */
  ghost predicate KeptOrSkipped(rs: seq<KodikResult>, before: seq<nat>, out: seq<string>, j: nat,
                                skip: SkipTest, rec: RecordMaker)
    requires j < |rs| && j + 1 < |before|
  {
    var c := before[j];
    && c <= |out|
    && if skip(rs[j], out[..c]) then before[j + 1] == c
       else c < |out| && rec.requires(c, rs[j]) && out[c] == rec(c, rs[j]) && before[j + 1] == c + 1
  }

  /** The first `n` results were handled one by one into `out`; `before[j]` counts the
      records kept from the results before `j`. */
  ghost predicate SelectTrace(rs: seq<KodikResult>, n: nat, before: seq<nat>, out: seq<string>,
                              skip: SkipTest, rec: RecordMaker)
  {
    && n <= |rs|
    && |before| == n + 1
    && before[0] == 0
    && before[n] == |out|
    && forall j :: 0 <= j < n ==> KeptOrSkipped(rs, before, out, j, skip, rec)
  }

  /** One more dropped result extends a trace. */
  lemma TraceSkip(rs: seq<KodikResult>, j: nat, before: seq<nat>, kept: seq<string>, skip: SkipTest, rec: RecordMaker)
    requires j < |rs|
    requires SelectTrace(rs, j, before, kept, skip, rec)
    requires skip(rs[j], kept)
    ensures SelectTrace(rs, j + 1, before + [|kept|], kept, skip, rec)
  {
    assert kept[..|kept|] == kept;
    var b := before + [|kept|];
    forall i | 0 <= i < j + 1
      ensures KeptOrSkipped(rs, b, kept, i, skip, rec)
    {
      if i < j {
        assert KeptOrSkipped(rs, before, kept, i, skip, rec);
      }
    }
  }

  /** One more kept result extends a trace. */
  lemma TraceKeep(rs: seq<KodikResult>, j: nat, before: seq<nat>, kept: seq<string>, skip: SkipTest, rec: RecordMaker)
    requires j < |rs|
    requires SelectTrace(rs, j, before, kept, skip, rec)
    requires !skip(rs[j], kept) && rec.requires(|kept|, rs[j])
    ensures SelectTrace(rs, j + 1, before + [|kept| + 1], kept + [rec(|kept|, rs[j])], skip, rec)
  {
    var b := before + [|kept| + 1];
    var out := kept + [rec(|kept|, rs[j])];
    forall i | 0 <= i < j + 1
      ensures KeptOrSkipped(rs, b, out, i, skip, rec)
    {
      if i < j {
        assert KeptOrSkipped(rs, before, kept, i, skip, rec);
        var c := before[i];
        assert out[..c] == kept[..c];
      } else {
        assert out[..|kept|] == kept;
      }
    }
  }

  /** No result adds more than one record. */
  lemma {:induction false} TraceCounts(rs: seq<KodikResult>, n: nat, before: seq<nat>, out: seq<string>,
                                       skip: SkipTest, rec: RecordMaker, j: nat)
    requires SelectTrace(rs, n, before, out, skip, rec)
    requires j <= n
    ensures before[j] <= j
    decreases j
  {
    if j > 0 {
      TraceCounts(rs, n, before, out, skip, rec, j - 1);
      assert KeptOrSkipped(rs, before, out, j - 1, skip, rec);
    }
  }

  /** The adapter's trace: kept results are formatted by `KodikRecord`, dropped ones have a
      title that already occurs in the text of the records kept before them. */
  ghost predicate KodikTrace(rs: seq<KodikResult>, before: seq<nat>, out: seq<string>)
  {
    SelectTrace(rs, |rs|, before, out, SkippedBy, KodikRecord)
  }

  /** The loop keeps exactly what its trace says. */
  lemma {:induction false} KodikFromTrace(rs: seq<KodikResult>, j: nat, before0: seq<nat>, kept: seq<string>)
      returns (before: seq<nat>)
    requires j <= |rs|
    requires SelectTrace(rs, j, before0, kept, SkippedBy, KodikRecord)
    requires KodikFrom(rs, j, kept).Some?
    ensures KodikTrace(rs, before, KodikFrom(rs, j, kept).value)
    decreases |rs| - j
  {
    if j == |rs| {
      before := before0;
    } else if SkippedBy(rs[j], kept) {
      TraceSkip(rs, j, before0, kept, SkippedBy, KodikRecord);
      before := KodikFromTrace(rs, j + 1, before0 + [|kept|], kept);
    } else {
      assert Formattable(rs[j]);
      var e := KodikRecord(|kept|, rs[j]);
      TraceKeep(rs, j, before0, kept, SkippedBy, KodikRecord);
      before := KodikFromTrace(rs, j + 1, before0 + [|kept| + 1], kept + [e]);
    }
  }

  /** Every list the adapter returns is described by its trace over all of the upstream
      results: one record at most per result, in upstream order, each result either dropped
      because its title occurs in the text of the records kept before it, or kept as the
      c-th record (c = records kept before it) with slot `kodik{50-c}`, URL `https:` + link
      and label `KODIK>` + title. */
  lemma KodikRecordsTrace(rs: seq<KodikResult>) returns (before: seq<nat>)
    requires KodikRecords(Some(rs)).Some?
    ensures KodikTrace(rs, before, KodikRecords(Some(rs)).value)
    ensures |KodikRecords(Some(rs)).value| <= |rs|
  {
    before := KodikFromTrace(rs, 0, [0], []);
    TraceCounts(rs, |rs|, before, KodikRecords(Some(rs)).value, SkippedBy, KodikRecord, |rs|);
  }

  /** Slot names are pairwise distinct, including past the 50th record: there is no cap,
      the numbering just goes on through `kodik0`, `kodik-1`, ... */
  lemma KodikSlotsDistinct(i: nat, j: nat)
    requires i != j
    ensures KodikSlot(i) != KodikSlot(j)
  {
    IntToStringInjective(50 - i, 50 - j);
    assert KodikSlot(i)[5..] == IntToString(50 - i);
    assert KodikSlot(j)[5..] == IntToString(50 - j);
  }

  /** The first slot is `kodik50` and the 51st is `kodik0`. */
  lemma KodikSlotExamples()
    ensures KodikSlot(0) == "kodik50"
    ensures KodikSlot(50) == "kodik0"
  {
    assert NatToString(50) == "50" by {
      assert NatToString(5) == "5";
    }
  }

  /** An empty title occurs in any text, so a result with one is always skipped. */
  lemma EmptyTitleSkipped(link: Field, id: Field, kept: seq<string>)
    ensures SkippedBy(KodikResult(Str(""), link, id), kept)
  {
    ContainsEmpty(ListRepr(kept));
  }

  /** Hence no kept record carries an empty title. */
  lemma KeptTitlesNonEmpty(rs: seq<KodikResult>, before: seq<nat>, out: seq<string>, j: nat)
    requires KodikTrace(rs, before, out)
    requires j < |rs| && before[j + 1] != before[j]
    ensures rs[j].title.Str? && rs[j].title.text != ""
  {
    assert KeptOrSkipped(rs, before, out, j, SkippedBy, KodikRecord);
    var res := rs[j];
    var kept := out[..before[j]];
    assert !SkippedBy(res, kept) && Formattable(res);
    EmptyTitleSkipped(res.link, res.kinopoiskId, kept);
    assert res != KodikResult(Str(""), res.link, res.kinopoiskId);
  }

  /** A result without a string title makes the whole adapter fail, wherever it is. */
  lemma {:induction false} KodikTitleFails(rs: seq<KodikResult>, j: nat, kept: seq<string>, bad: nat)
    requires j <= bad < |rs|
    requires !rs[bad].title.Str?
    ensures KodikFrom(rs, j, kept) == None
    decreases |rs| - j
  {
    if j < bad && rs[j].title.Str? {
      if SkippedBy(rs[j], kept) {
        KodikTitleFails(rs, j + 1, kept, bad);
      } else if !rs[j].link.Absent? {
        KodikTitleFails(rs, j + 1, kept + [KodikRecord(|kept|, rs[j])], bad);
      }
    }
  }

  /** When every result has a string title and a link, the adapter yields a list. */
  lemma {:induction false} KodikWellFormedSucceeds(rs: seq<KodikResult>, j: nat, kept: seq<string>)
    requires j <= |rs|
    requires forall i :: j <= i < |rs| ==> Formattable(rs[i])
    ensures KodikFrom(rs, j, kept).Some?
    decreases |rs| - j
  {
    if j < |rs| {
      if SkippedBy(rs[j], kept) {
        KodikWellFormedSucceeds(rs, j + 1, kept);
      } else {
        KodikWellFormedSucceeds(rs, j + 1, kept + [KodikRecord(|kept|, rs[j])]);
      }
    }
  }

  // ---------------------------------------------------------------- cache_kodik

  /** What `cache_kodik` ends in: an exception (the caller's bare `except` answers `{}`),
      the `kinopoisk_id` value of the first result that has one, or the rendered mirrors. */
  datatype Lookup = LookupFailed | FoundId(id: Field) | Mirrors(body: string)

  /** Kodik's answer to the shikimori query: unusable (network error, error status, a body
      that is not JSON, a `results` value that is not a list), or the `results` member, which
      `response.get("results", [])` reads as empty when it is missing. */
  datatype ShikiReply = ShikiFailed | ShikiResults(results: Option<seq<KodikResult>>)

  /** The record for the k-th distinct title, numbered from 1; a null title prints as `None`. */
  function MirrorRecord(k: nat, res: KodikResult): string
    requires !res.title.Absent? && !res.link.Absent?
  {
    FormatResult("kodik" + NatToString(k + 1), "https:" + FieldText(res.link), "KODIK>" + FieldText(res.title), "")
  }

  /** The resolver's loop from result `j`, with the titles `seen` and the records `kept`. */
  function CacheKodikFrom(rs: seq<KodikResult>, j: nat, seen: set<Field>, kept: seq<string>): Lookup
    requires j <= |rs|
    decreases |rs| - j
  {
    if j == |rs| then Mirrors("{" + Join(",", kept) + "}")
    else
      var res := rs[j];
      if !res.kinopoiskId.Absent? then FoundId(res.kinopoiskId)
      else if res.title.Absent? then LookupFailed
      else if res.title in seen then CacheKodikFrom(rs, j + 1, seen, kept)
      else if res.link.Absent? then LookupFailed
      else CacheKodikFrom(rs, j + 1, seen + {res.title}, kept + [MirrorRecord(|kept|, res)])
  }

  /** `cache_kodik`; the id is sanitised to its digits before the query (see `ShikiQueryId`). */
  function CacheKodik(reply: ShikiReply): Lookup
  {
    match reply
    case ShikiFailed => LookupFailed
    case ShikiResults(None) => CacheKodikFrom([], 0, {}, [])
    case ShikiResults(Some(rs)) => CacheKodikFrom(rs, 0, {}, [])
  }

  /** The id sent upstream: every non-digit removed from what follows the `shiki` prefix. */
  function ShikiQueryId(kinopoisk: string): (r: string)
    ensures AllDigits(r)
    ensures AllDigits(kinopoisk) ==> r == kinopoisk
  {
    if AllDigits(kinopoisk) then (DigitsOnlyOfDigits(kinopoisk); DigitsOnly(kinopoisk))
    else DigitsOnly(kinopoisk)
  }

  /** Digits carry no `shiki`, so removing that word leaves them alone. */
  lemma DigitsHaveNoShiki(d: string)
    requires AllDigits(d)
    ensures !Contains(d, "shiki")
  {
    ContainsIff(d, "shiki");
    forall i: nat
      ensures !OccursAt(d, "shiki", i)
    {
      if i + 5 <= |d| {
        assert d[i..i + 5][0] == d[i];
        assert IsDigit(d[i]);
      }
    }
  }

  /** `shiki` followed by a shikimori id asks for exactly that id. */
  lemma ShikiPrefixedId(d: string)
    requires AllDigits(d)
    ensures ReplaceAll("shiki" + d, "shiki", "") == d
    ensures ShikiQueryId(ReplaceAll("shiki" + d, "shiki", "")) == d
  {
    var s := "shiki" + d;
    assert s[..5] == "shiki";
    assert s[5..] == d;
    DigitsHaveNoShiki(d);
    ReplaceAbsent(d, "shiki", "");
  }

  /** No results, or no `results` member at all, give the empty object. */
  lemma CacheKodikEmpty()
    ensures CacheKodik(ShikiResults(None)) == Mirrors("{}")
    ensures CacheKodik(ShikiResults(Some([]))) == Mirrors("{}")
  {
    assert "{" + "" + "}" == "{}";
  }

  /** The titles of the first `j` results. */
  function TitlesBefore(rs: seq<KodikResult>, j: nat): set<Field>
    requires j <= |rs|
  {
    set i | 0 <= i < j :: rs[i].title
  }

  /** No result before `j` carries a `kinopoisk_id` key, and each has a title, plus a link
      when its title is new: the loop got past all of them without leaving. A repeated
      title is passed over before its link is read. */
  predicate PassedWithoutId(rs: seq<KodikResult>, j: nat)
    requires j <= |rs|
  {
    forall i :: 0 <= i < j ==>
      rs[i].kinopoiskId.Absent? && !rs[i].title.Absent? && (FirstTitle(rs, i) ==> !rs[i].link.Absent?)
  }

  /** The title of `rs[i]` is new to a loop that started at `j` with the titles `seen`. */
  predicate NewSince(rs: seq<KodikResult>, j: nat, i: nat, seen: set<Field>)
    requires j <= i < |rs|
  {
    rs[i].title !in seen && forall m :: j <= m < i ==> rs[m].title != rs[i].title
  }

  /** The first result with a `kinopoisk_id` key decides the answer: records built so far
      are discarded. */
  lemma {:induction false} CacheKodikShortCircuit(rs: seq<KodikResult>, j: nat, seen: set<Field>, kept: seq<string>, first: nat)
    requires j <= first < |rs|
    requires forall i :: j <= i < first ==>
      rs[i].kinopoiskId.Absent? && !rs[i].title.Absent? && (NewSince(rs, j, i, seen) ==> !rs[i].link.Absent?)
    requires !rs[first].kinopoiskId.Absent?
    ensures CacheKodikFrom(rs, j, seen, kept) == FoundId(rs[first].kinopoiskId)
    decreases |rs| - j
  {
    if j < first {
      var res := rs[j];
      var seen' := if res.title in seen then seen else seen + {res.title};
      forall i | j + 1 <= i < first
        ensures NewSince(rs, j + 1, i, seen') ==> NewSince(rs, j, i, seen)
      {
        NewSinceStep(rs, j, i, seen, seen');
      }
      if res.title in seen {
        CacheKodikShortCircuit(rs, j + 1, seen, kept, first);
      } else {
        assert NewSince(rs, j, j, seen);
        CacheKodikShortCircuit(rs, j + 1, seen', kept + [MirrorRecord(|kept|, res)], first);
      }
    }
  }

  /** A title new to the loop one step later, with `rs[j]`'s title now seen, was new
      before that step too. */
  lemma NewSinceStep(rs: seq<KodikResult>, j: nat, i: nat, seen: set<Field>, seen': set<Field>)
    requires j < i < |rs|
    requires seen <= seen' && rs[j].title in seen'
    ensures NewSince(rs, j + 1, i, seen') ==> NewSince(rs, j, i, seen)
  {
  }

  /** `rs[j]` is the first result with its title. */
  predicate FirstTitle(rs: seq<KodikResult>, j: nat)
    requires j < |rs|
  {
    forall i :: 0 <= i < j ==> rs[i].title != rs[j].title
  }

  /** The mirrors of the first `n` results: `idx` lists, in increasing order, exactly the
      results whose title is new, and the k-th of them became record `kodik{k+1}`. */
  ghost predicate MirrorTrace(rs: seq<KodikResult>, n: nat, idx: seq<nat>, out: seq<string>)
  {
    && n <= |rs|
    && PassedWithoutId(rs, n)
    && |idx| == |out|
    && (forall k :: 0 <= k < |idx| ==> idx[k] < n)
    && (forall a, b :: 0 <= a < b < |idx| ==> idx[a] < idx[b])
    && (forall j :: 0 <= j < n ==> (j in idx <==> FirstTitle(rs, j)))
    && (forall k :: 0 <= k < |idx| ==> out[k] == MirrorRecord(k, rs[idx[k]]))
  }

  /** A result whose title was seen before extends the trace without a record. */
  lemma MirrorSkip(rs: seq<KodikResult>, j: nat, idx: seq<nat>, kept: seq<string>)
    requires j < |rs|
    requires MirrorTrace(rs, j, idx, kept)
    requires rs[j].kinopoiskId.Absent? && !rs[j].title.Absent?
    requires rs[j].title in TitlesBefore(rs, j)
    ensures MirrorTrace(rs, j + 1, idx, kept)
  {
    var i :| 0 <= i < j && rs[i].title == rs[j].title;
    assert !FirstTitle(rs, j);
    assert j !in idx;
    assert PassedWithoutId(rs, j + 1);
  }

  /** A result with a new title extends the trace with the next numbered record. */
  lemma MirrorKeep(rs: seq<KodikResult>, j: nat, idx: seq<nat>, kept: seq<string>)
    requires j < |rs|
    requires MirrorTrace(rs, j, idx, kept)
    requires rs[j].kinopoiskId.Absent? && !rs[j].title.Absent? && !rs[j].link.Absent?
    requires rs[j].title !in TitlesBefore(rs, j)
    ensures MirrorTrace(rs, j + 1, idx + [j], kept + [MirrorRecord(|kept|, rs[j])])
  {
    KeepIsFirst(rs, j);
    forall k | 0 <= k < |idx|
      ensures !rs[idx[k]].title.Absent? && !rs[idx[k]].link.Absent?
    {
      assert idx[k] in idx;
    }
    KeepIndices(idx, j);
    KeepMarks(rs, j, idx);
    KeepRecords(rs, idx, kept, j);
  }

  /** A title not among the earlier ones is a first occurrence. */
  lemma KeepIsFirst(rs: seq<KodikResult>, j: nat)
    requires j < |rs|
    requires rs[j].title !in TitlesBefore(rs, j)
    ensures FirstTitle(rs, j)
  {
    forall i | 0 <= i < j
      ensures rs[i].title != rs[j].title
    {
      assert rs[i].title in TitlesBefore(rs, j);
    }
  }

  /** Appending `j` keeps the indices below the bound and increasing. */
  lemma KeepIndices(idx: seq<nat>, j: nat)
    requires forall k :: 0 <= k < |idx| ==> idx[k] < j
    requires forall a, b :: 0 <= a < b < |idx| ==> idx[a] < idx[b]
    ensures forall k :: 0 <= k < |idx + [j]| ==> (idx + [j])[k] < j + 1
    ensures forall a, b :: 0 <= a < b < |idx + [j]| ==> (idx + [j])[a] < (idx + [j])[b]
  {
  }

  /** Appending a first occurrence keeps the indices exactly the first occurrences. */
  lemma KeepMarks(rs: seq<KodikResult>, j: nat, idx: seq<nat>)
    requires j < |rs|
    requires forall i :: 0 <= i < j ==> (i in idx <==> FirstTitle(rs, i))
    requires j !in idx
    requires FirstTitle(rs, j)
    ensures forall i :: 0 <= i < j + 1 ==> (i in idx + [j] <==> FirstTitle(rs, i))
  {
    forall i | 0 <= i < j + 1
      ensures i in idx + [j] <==> FirstTitle(rs, i)
    {
      if i < j {
        assert i in idx + [j] <==> i in idx;
      }
    }
  }

  /** The appended record is numbered after the ones before it. */
  lemma KeepRecords(rs: seq<KodikResult>, idx: seq<nat>, kept: seq<string>, j: nat)
    requires j < |rs| && !rs[j].title.Absent? && !rs[j].link.Absent?
    requires |idx| == |kept|
    requires forall k :: 0 <= k < |idx| ==> idx[k] < j && !rs[idx[k]].title.Absent? && !rs[idx[k]].link.Absent?
    requires forall k :: 0 <= k < |idx| ==> kept[k] == MirrorRecord(k, rs[idx[k]])
    ensures forall k :: 0 <= k < |idx + [j]| ==>
      (kept + [MirrorRecord(|kept|, rs[j])])[k] == MirrorRecord(k, rs[(idx + [j])[k]])
  {
    var idx' := idx + [j];
    var out := kept + [MirrorRecord(|kept|, rs[j])];
    forall k | 0 <= k < |idx'|
      ensures out[k] == MirrorRecord(k, rs[idx'[k]])
    {
      if k < |idx| {
        assert out[k] == kept[k];
        assert idx'[k] == idx[k];
      }
    }
  }

  /** The loop's `seen` set is the titles so far; with it, the loop completes the trace. */
  lemma {:induction false} CacheKodikFromTrace(rs: seq<KodikResult>, j: nat, idx0: seq<nat>, kept: seq<string>)
      returns (idx: seq<nat>)
    requires j <= |rs|
    requires MirrorTrace(rs, j, idx0, kept)
    requires PassedWithoutId(rs, |rs|)
    ensures exists out :: CacheKodikFrom(rs, j, TitlesBefore(rs, j), kept) == Mirrors("{" + Join(",", out) + "}")
                          && MirrorTrace(rs, |rs|, idx, out)
    decreases |rs| - j
  {
    if j == |rs| {
      idx := idx0;
    } else {
      var res := rs[j];
      var seen := TitlesBefore(rs, j);
      assert TitlesBefore(rs, j + 1) == seen + {res.title};
      if res.title in seen {
        MirrorSkip(rs, j, idx0, kept);
        assert TitlesBefore(rs, j + 1) == seen;
        idx := CacheKodikFromTrace(rs, j + 1, idx0, kept);
      } else {
        KeepIsFirst(rs, j);
        MirrorKeep(rs, j, idx0, kept);
        idx := CacheKodikFromTrace(rs, j + 1, idx0 + [j], kept + [MirrorRecord(|kept|, res)]);
      }
    }
  }

  /** When no result has a `kinopoisk_id` and none is missing a member the loop reads, the
      answer is `"{" + ",".join(records) + "}"`, with one record per distinct title, in
      upstream order, numbered `kodik1..n` consecutively. */
  lemma CacheKodikMirrors(rs: seq<KodikResult>) returns (idx: seq<nat>)
    requires PassedWithoutId(rs, |rs|)
    ensures exists out :: CacheKodik(ShikiResults(Some(rs))) == Mirrors("{" + Join(",", out) + "}")
                          && MirrorTrace(rs, |rs|, idx, out)
  {
    assert TitlesBefore(rs, 0) == {};
    idx := CacheKodikFromTrace(rs, 0, [], []);
  }

  /** A repeated title needs no link: the loop passes over it before reading one, so the
      mirrors page holds the first result alone. */
  lemma RepeatedTitleNeedsNoLink()
    ensures var rs := [KodikResult(Str("A"), Str("//x"), Absent), KodikResult(Str("A"), Absent, Absent)];
      PassedWithoutId(rs, |rs|) &&
      CacheKodik(ShikiResults(Some(rs))) == Mirrors("{" + MirrorRecord(0, rs[0]) + "}")
  {
    var rs := [KodikResult(Str("A"), Str("//x"), Absent), KodikResult(Str("A"), Absent, Absent)];
    assert rs[0].title == rs[1].title;
    assert !FirstTitle(rs, 1);
    assert Join(",", [MirrorRecord(0, rs[0])]) == MirrorRecord(0, rs[0]);
  }
}

=== FILE: kodik_parser.dfy ===
/**
  The stand-alone Kodik client: the guarded API call, the shikimori search and the token
  scraped from the player script.
 */
module KodikParser {
  import opened Wrappers
  import opened Text
  import opened Wire
  import opened Kodik

  /** A form POST to the Kodik API. */
  datatype Call = Call(url: string, form: map<string, string>)

  /** One search result, as far as the client looks at it. */
  datatype Item = Item(kinopoiskId: Field)

  /** A decoded reply body: its `results` member (`None` when absent) and the other
      members, returned untouched. */
  datatype Body = Body(results: Option<seq<Item>>, rest: map<string, string>)

  /** The HTTP answer: its status and its body, `None` when `response.json()` raises. */
  datatype Reply = Reply(status: int, body: Option<Body>)

  /** What `api_request` gives back: `{}`, the decoded body, or the exception raised by a
      body that is not JSON. */
  datatype ApiResult = EmptyObject | Data(data: Body) | Raised

  /** The token in use: the one given when it is truthy, otherwise the scraped one, which
      is the empty string when the script could not be fetched. */
  function TokenOf(given: Option<string>, script: Option<string>): (t: string)
    ensures given.Some? && given.value != "" ==> t == given.value
    ensures (given.None? || given.value == "") && script.None? ==> t == ""
  {
    if given.Some? && given.value != "" then given.value
    else match script
      case None => ""
      case Some(text) => GetToken(text)
  }

  /** The request `api_request` sends, if any: none without a token, else the payload with
      the token added. */
  function ApiCall(endpoint: string, payload: map<string, string>, token: string): Option<Call>
  {
    if token == "" then None else Some(Call("https://kodikapi.com/" + endpoint, payload["token" := token]))
  }

  /** `api_request` once the reply to `ApiCall` is known: `{}` without a token or on a
      status other than 200, the body when its `results` is a non-empty list, `{}`
      otherwise. */
  function ApiRequest(token: string, reply: Reply): ApiResult
  {
    if token == "" then EmptyObject
    else if reply.status != 200 then EmptyObject
    else match reply.body
      case None => Raised
      case Some(b) => if b.results.Some? && |b.results.value| > 0 then Data(b) else EmptyObject
  }

  /** The sent form always carries the token and keeps every other member of the payload. */
  lemma ApiCallCarriesToken(endpoint: string, payload: map<string, string>, token: string)
    requires token != ""
    ensures ApiCall(endpoint, payload, token).Some?
    ensures var f := ApiCall(endpoint, payload, token).value.form;
      "token" in f && f["token"] == token &&
      forall k :: k in payload && k != "token" ==> k in f && f[k] == payload[k]
  {
  }

  /** The data comes back unchanged exactly when the call was made, answered 200, decoded,
      and carried results; every other way ends in `{}` or the decoding error. */
  lemma ApiRequestFilters(token: string, reply: Reply)
    ensures ApiRequest(token, reply).Data? <==>
      token != "" && reply.status == 200 && reply.body.Some? &&
      reply.body.value.results.Some? && |reply.body.value.results.value| > 0
    ensures ApiRequest(token, reply).Data? ==> ApiRequest(token, reply).data == reply.body.value
    ensures ApiRequest(token, reply).Raised? <==> token != "" && reply.status == 200 && reply.body.None?
  {
  }

  /** The limit sent: the one asked for, or 50 when it is missing or zero. */
  function Limit(limit: Option<int>): (n: int)
    ensures limit.None? || limit.value == 0 ==> n == 50
    ensures limit.Some? && limit.value != 0 ==> n == limit.value
  {
    if limit.Some? && limit.value != 0 then limit.value else 50
  }

  /** `base_search_by_id`'s payload, each value as the form encoding prints it. */
  function SearchPayload(id: string, limit: int): map<string, string>
  {
    map["shikimori_id" := id, "limit" := IntToString(limit), "with_material_data" := "true"]
  }

  /** The id searched for: every `shiki` removed when there is one. */
  function SearchId(id: string): string
  {
    if Contains(id, "shiki") then ReplaceAll(id, "shiki", "") else id
  }

  /** The first result with a truthy `kinopoisk_id`, from index `j` on. */
  function FirstKinopoisk(items: seq<Item>, j: nat): Option<string>
    requires j <= |items|
    decreases |items| - j
  {
    if j == |items| then None
    else if items[j].kinopoiskId.Str? && items[j].kinopoiskId.text != "" then Some(items[j].kinopoiskId.text)
    else FirstKinopoisk(items, j + 1)
  }

  /** The id's results as `search_data.get('results', [])` reads them. */
  function ResultsOf(r: ApiResult): seq<Item>
  {
    if r.Data? && r.data.results.Some? then r.data.results.value else []
  }

  /** The request `search_by_id` sends. */
  function SearchCall(id: string, limit: Option<int>, token: string): Option<Call>
  {
    ApiCall("search", SearchPayload(SearchId(id), Limit(limit)), token)
  }

  /** `search_by_id` once the reply to `SearchCall` is known: the first truthy
      `kinopoisk_id`, `None` when there is none, or the decoding error. */
  function SearchById(token: string, reply: Reply): Option<Option<string>>
  {
    var r := ApiRequest(token, reply);
    if r.Raised? then None else Some(FirstKinopoisk(ResultsOf(r), 0))
  }

  /** Index `k` holds the first truthy `kinopoisk_id` from `j` on. */
  predicate FirstTruthyAt(items: seq<Item>, j: nat, k: nat)
  {
    j <= k < |items| && items[k].kinopoiskId.Str? && items[k].kinopoiskId.text != "" &&
    forall m :: j <= m < k ==> !(items[m].kinopoiskId.Str? && items[m].kinopoiskId.text != "")
  }

  /** The first truthy id is found, and nothing before it was truthy; `None` means no
      result had one. */
  lemma {:induction false} FirstKinopoiskSpec(items: seq<Item>, j: nat)
    requires j <= |items|
    ensures var r := FirstKinopoisk(items, j);
      (r.None? <==> forall k :: j <= k < |items| ==> !(items[k].kinopoiskId.Str? && items[k].kinopoiskId.text != "")) &&
      (r.Some? ==> exists k: nat :: FirstTruthyAt(items, j, k) && items[k].kinopoiskId == Str(r.value))
    decreases |items| - j
  {
    if j < |items| && !(items[j].kinopoiskId.Str? && items[j].kinopoiskId.text != "") {
      FirstKinopoiskSpec(items, j + 1);
    }
  }

  /** What `search_by_id` answers: the decoding error exactly on a 200 whose body does not
      decode; `None` without a token, on another status, or when the body has no results
      (the `.get('results', [])` default); otherwise the first truthy `kinopoisk_id` of the
      results, and `None` exactly when no result has one. */
  lemma SearchByIdAnswers(token: string, reply: Reply)
    ensures SearchById(token, reply).None? <==> token != "" && reply.status == 200 && reply.body.None?
    ensures token == "" || reply.status != 200 ==> SearchById(token, reply) == Some(None)
    ensures token != "" && reply.status == 200 && reply.body.Some? &&
            (reply.body.value.results.None? || reply.body.value.results.value == []) ==>
            SearchById(token, reply) == Some(None)
    ensures ApiRequest(token, reply).Data? ==>
            SearchById(token, reply) == Some(FirstKinopoisk(reply.body.value.results.value, 0))
    ensures var items := ResultsOf(ApiRequest(token, reply));
      SearchById(token, reply) == Some(None) <==>
        !ApiRequest(token, reply).Raised? &&
        forall k :: 0 <= k < |items| ==> !(items[k].kinopoiskId.Str? && items[k].kinopoiskId.text != "")
    ensures var items := ResultsOf(ApiRequest(token, reply));
      SearchById(token, reply).Some? && SearchById(token, reply).value.Some? ==>
        exists k: nat :: FirstTruthyAt(items, 0, k) && items[k].kinopoiskId == Str(SearchById(token, reply).value.value)
  {
    FirstKinopoiskSpec(ResultsOf(ApiRequest(token, reply)), 0);
  }

  /** The search sends the shikimori id without its `shiki` prefix, the limit (50 by
      default) and the token. */
  lemma SearchCallPayload(d: string, limit: Option<int>, token: string)
    requires AllDigits(d) && token != ""
    ensures var c := SearchCall("shiki" + d, limit, token);
      c.Some? && c.value.url == "https://kodikapi.com/search" &&
      c.value.form == map["shikimori_id" := d, "limit" := IntToString(Limit(limit)),
                          "with_material_data" := "true", "token" := token]
  {
    assert SearchId("shiki" + d) == d by {
      ShikiPrefixedId(d);
      assert OccursAt("shiki" + d, "shiki", 0);
      ContainsIff("shiki" + d, "shiki");
    }
  }

  /** Without `shiki` the id is sent as given; removing the word where it occurs is
      the same as `replace` on an id that lacks it. */
  lemma SearchIdIsReplace(id: string)
    ensures SearchId(id) == ReplaceAll(id, "shiki", "")
    ensures !Contains(id, "shiki") ==> SearchId(id) == id
  {
    if !Contains(id, "shiki") {
      ReplaceAbsent(id, "shiki", "");
    }
  }

  // ---------------------------------------------------------------- token

  /** `get_token`: from seven characters after the first `token=` up to the next double
      quote, by Python slicing. */
  function GetToken(data: string): string
  {
    var start := TokenStart(data);
    PySlice(data, start, FindFrom(data, "\"", start))
  }

  /** Where the token begins: seven characters after the first `token=`, which is index 6
      when there is none. */
  function TokenStart(data: string): (start: nat)
    ensures start == FindFrom(data, "token=", 0) + 7
    ensures !Contains(data, "token=") ==> start == 6
    ensures Contains(data, "token=") ==>
      start >= 7 && OccursAt(data, "token=", start - 7) &&
      forall i: nat :: i < start - 7 ==> !OccursAt(data, "token=", i)
  {
    FindFromSpec(data, "token=", 0);
    FindFrom(data, "token=", 0) + 7
  }

  /** The well-formed case: the first `token=` is followed by a quoted token, which comes
      back as it is. */
  lemma GetTokenQuoted(pre: string, x: string, post: string)
    requires '"' !in x
    requires forall i :: 0 <= i < |pre| ==> !OccursAt(pre + "token=\"" + x + "\"" + post, "token=", i)
    ensures GetToken(pre + "token=\"" + x + "\"" + post) == x
  {
    var head := pre + "token=\"";
    var data := head + x + ("\"" + post);
    assert data == pre + "token=\"" + x + "\"" + post;
    var p := |pre|;
    assert data[p..p + 6] == "token=";
    FindFromFirst(data, "token=", 0, p);
    var start := p + 7;
    var q := start + |x|;
    assert data[q..q + 1] == "\"";
    forall i: nat | start <= i < q
      ensures !OccursAt(data, "\"", i)
    {
      assert data[i] == x[i - start];
      assert data[i..i + 1][0] == data[i];
    }
    FindFromFirst(data, "\"", start, q);
    assert data[start..q] == x;
  }

  /** With no token given, the client uses the one quoted after the first `token=` of the
      player script. */
  lemma TokenOfScraped(given: Option<string>, pre: string, x: string, post: string)
    requires given.None? || given.value == ""
    requires '"' !in x
    requires forall i :: 0 <= i < |pre| ==> !OccursAt(pre + "token=\"" + x + "\"" + post, "token=", i)
    ensures TokenOf(given, Some(pre + "token=\"" + x + "\"" + post)) == x
  {
    GetTokenQuoted(pre, x, post);
  }

  /** Without `token=` the slice starts at index 6. */
  lemma GetTokenNoMarker(data: string)
    requires !Contains(data, "token=")
    ensures GetToken(data) == PySlice(data, 6, FindFrom(data, "\"", 6))
  {
    FindFromSpec(data, "token=", 0);
  }

  /** A character that is not in the text is found nowhere. */
  lemma CharAbsent(data: string, c: char, start: nat)
    requires forall i :: start <= i < |data| ==> data[i] != c
    ensures FindFrom(data, [c], start) == -1
  {
    forall i: nat | start <= i
      ensures !OccursAt(data, [c], i)
    {
      if i + 1 <= |data| {
        assert data[i..i + 1][0] == data[i];
      }
    }
    FindFromAbsent(data, [c], start);
  }

  /** Without a closing quote the slice ends one character before the end. */
  lemma GetTokenNoQuote(data: string)
    requires forall i :: TokenStart(data) <= i < |data| ==> data[i] != '"'
    ensures GetToken(data) == PySlice(data, TokenStart(data), |data| - 1)
  {
    var start := TokenStart(data);
    CharAbsent(data, '"', start);
    assert SliceBound(-1, |data|) == SliceBound(|data| - 1, |data|);
  }

  /** Text without a `t` has no `token=`. */
  lemma NoMarkerWithoutT(data: string)
    requires forall i :: 0 <= i < |data| ==> data[i] != 't'
    ensures !Contains(data, "token=")
  {
    forall i: nat
      ensures !OccursAt(data, "token=", i)
    {
      if i + 6 <= |data| {
        assert data[i..i + 6][0] == data[i];
      }
    }
    FindFromAbsent(data, "token=", 0);
  }

  /** Text without the marker or a quote: the slice runs from index 6 to the last
      character, exclusive. */
  lemma GetTokenNoMarkerExample()
    ensures GetToken("abcdefgh") == "g"
  {
    var data := "abcdefgh";
    NoMarkerWithoutT(data);
    GetTokenNoMarker(data);
    CharAbsent(data, '"', 6);
    assert data[6..7] == "g";
  }

  /** A marker without a closing quote loses the last character of the token. */
  lemma GetTokenUnclosedExample()
    ensures GetToken("token=\"abc") == "ab"
  {
    var data := "token=\"abc";
    assert data[..6] == "token=";
    assert FindFrom(data, "token=", 0) == 0;
    CharAbsent(data, '"', 7);
    assert data[7..9] == "ab";
  }
}

=== FILE: legacy.dfy ===
/**
  The legacy server: seven providers asked one after the other, each inside its own
  handler, their records concatenated with a comma after each one; and the keyword
  search with its year filter and title format.
 */
module Legacy {
  import opened Wrappers
  import opened Text
  import opened Wire

  /** The string values a legacy provider reads from its first result: the player URL, the
      title or name, and the quality (unused by providers that print an empty quality). */
  datatype Hit = Hit(url: string, translate: string, quality: string)

  /** What the seven providers learn upstream. `None` stands for a provider whose
      handler caught an exception: network, a body that is not JSON, a missing key or an
      empty list, or a value that is not a string (the concatenation then raises). For
      bazon, one bad result spoils the whole list. Voidboost is the status code, when
      the request went through. */
  datatype LegacyUpstream = LegacyUpstream(
    iframe: Option<Hit>, apicollaps: Option<Hit>, videocdn: Option<Hit>, hdvb: Option<Hit>,
    bazon: Option<seq<Hit>>, alloha: Option<Hit>, voidboost: Option<int>)

  /** One bazon result as a record. */
  function BazonRecord(h: Hit): string
  {
    RecordText("bazon", h.url, h.translate, h.quality)
  }

  /** Every bazon result as a record, in upstream order. */
  function BazonRecords(hs: seq<Hit>): (rs: seq<string>)
    ensures |rs| == |hs|
    ensures forall i :: 0 <= i < |hs| ==> rs[i] == BazonRecord(hs[i])
  {
    seq(|hs|, i requires 0 <= i < |hs| => BazonRecord(hs[i]))
  }

  /** The bazon loop: each record followed by a comma, then every trailing comma removed. */
  function BazonEntry(hs: seq<Hit>): string
  {
    RStripChar(LegacyBody(BazonRecords(hs)), ',')
  }

  /** The bazon entry is its records joined by commas, in upstream order; an empty list
      gives the empty entry. */
  lemma BazonEntryIsJoin(hs: seq<Hit>)
    ensures BazonEntry(hs) == Join(",", BazonRecords(hs))
  {
    var rs := BazonRecords(hs);
    if |rs| > 0 {
      LegacyBodyTrailingComma(rs);
      assert |rs[|rs| - 1]| > 0;
      JoinEndsWithLast(",", rs);
      RStripOne(Join(",", rs), ',');
    }
  }

  /** The provider results in their fixed order: iframe.video, apicollaps, videocdn, hdvb,
      bazon, alloha, voidboost. A `None` is a provider that contributes nothing. */
  function Providers(kinopoisk: string, up: LegacyUpstream): (ps: seq<Option<string>>)
    ensures |ps| == 7
  {
    [ match up.iframe case None => None case Some(h) => Some(RecordText("iframe", h.url, h.translate, "")),
      match up.apicollaps case None => None case Some(h) => Some(RecordText("apicollaps", h.url, h.translate, h.quality)),
      match up.videocdn case None => None case Some(h) => Some(RecordText("videocdn", h.url, h.translate, "")),
      match up.hdvb case None => None case Some(h) => Some(RecordText("hdvb", h.url, h.translate, h.quality)),
      match up.bazon case None => None case Some(hs) => Some(BazonEntry(hs)),
      match up.alloha case None => None case Some(h) => Some(RecordText("alloha", h.url, "alloha " + h.translate, h.quality)),
      if up.voidboost.Some? && up.voidboost.value != 404 then
        Some(RecordText("voidboost", VoidboostUrl(kinopoisk), "voidboost", ""))
      else None ]
  }

  /** A hit none of whose fields holds a double quote, so its record decodes back. */
  predicate QuoteFree(h: Hit)
  {
    '"' !in h.url && '"' !in h.translate && '"' !in h.quality
  }

  /** The provider name a slot's record decodes to, if it holds one record. */
  function SourceOf(p: Option<string>): Option<string>
  {
    if p.Some? && DecodeRecord(p.value).Some? then Some(DecodeRecord(p.value).value.source) else None
  }

  /** A quote-free record decodes to the name it was written with. */
  lemma SourceOfRecord(name: string, u: string, tr: string, q: string)
    requires '"' !in name && '"' !in u && '"' !in tr && '"' !in q
    ensures SourceOf(Some(RecordText(name, u, tr, q))) == Some(name)
  {
    RecordRoundTrip(name, u, tr, q);
  }

  /** Slot k belongs to provider k: it is filled exactly when that provider answered. */
  lemma ProvidersFilled(kinopoisk: string, up: LegacyUpstream)
    ensures var ps := Providers(kinopoisk, up);
      (ps[0].Some? <==> up.iframe.Some?) && (ps[1].Some? <==> up.apicollaps.Some?) &&
      (ps[2].Some? <==> up.videocdn.Some?) && (ps[3].Some? <==> up.hdvb.Some?) &&
      (ps[4].Some? <==> up.bazon.Some?) && (ps[5].Some? <==> up.alloha.Some?) &&
      (ps[6].Some? <==> up.voidboost.Some? && up.voidboost.value != 404)
  {
  }

  /** The first two slots are iframe.video and apicollaps, in that order: a quote-free
      answer decodes to a record carrying that provider's name. */
  lemma ProvidersNamedFirst(kinopoisk: string, up: LegacyUpstream)
    ensures up.iframe.Some? && QuoteFree(up.iframe.value) ==> SourceOf(Providers(kinopoisk, up)[0]) == Some("iframe")
    ensures up.apicollaps.Some? && QuoteFree(up.apicollaps.value) ==> SourceOf(Providers(kinopoisk, up)[1]) == Some("apicollaps")
  {
    if up.iframe.Some? && QuoteFree(up.iframe.value) {
      var h := up.iframe.value;
      assert SourceOf(Providers(kinopoisk, up)[0]) == Some("iframe") by {
        SourceOfRecord("iframe", h.url, h.translate, "");
      }
    }
    if up.apicollaps.Some? && QuoteFree(up.apicollaps.value) {
      var h := up.apicollaps.value;
      assert SourceOf(Providers(kinopoisk, up)[1]) == Some("apicollaps") by {
        SourceOfRecord("apicollaps", h.url, h.translate, h.quality);
      }
    }
  }

  /** The next two slots are videocdn and hdvb, before the bazon slot. */
  lemma ProvidersNamedMiddle(kinopoisk: string, up: LegacyUpstream)
    ensures up.videocdn.Some? && QuoteFree(up.videocdn.value) ==> SourceOf(Providers(kinopoisk, up)[2]) == Some("videocdn")
    ensures up.hdvb.Some? && QuoteFree(up.hdvb.value) ==> SourceOf(Providers(kinopoisk, up)[3]) == Some("hdvb")
  {
    if up.videocdn.Some? && QuoteFree(up.videocdn.value) {
      var h := up.videocdn.value;
      assert SourceOf(Providers(kinopoisk, up)[2]) == Some("videocdn") by {
        SourceOfRecord("videocdn", h.url, h.translate, "");
      }
    }
    if up.hdvb.Some? && QuoteFree(up.hdvb.value) {
      var h := up.hdvb.value;
      assert SourceOf(Providers(kinopoisk, up)[3]) == Some("hdvb") by {
        SourceOfRecord("hdvb", h.url, h.translate, h.quality);
      }
    }
  }

  /** The last two slots are alloha and voidboost, after the bazon slot. */
  lemma ProvidersNamedLast(kinopoisk: string, up: LegacyUpstream)
    ensures up.alloha.Some? && QuoteFree(up.alloha.value) ==> SourceOf(Providers(kinopoisk, up)[5]) == Some("alloha")
    ensures up.voidboost.Some? && up.voidboost.value != 404 && '"' !in kinopoisk ==>
      SourceOf(Providers(kinopoisk, up)[6]) == Some("voidboost")
  {
    if up.alloha.Some? && QuoteFree(up.alloha.value) {
      var h := up.alloha.value;
      assert '"' !in "alloha " + h.translate;
      SourceOfRecord("alloha", h.url, "alloha " + h.translate, h.quality);
    }
    if up.voidboost.Some? && up.voidboost.value != 404 && '"' !in kinopoisk {
      assert '"' !in VoidboostUrl(kinopoisk);
      SourceOfRecord("voidboost", VoidboostUrl(kinopoisk), "voidboost", "");
    }
  }

  /** The voidboost embed page for an id. */
  function VoidboostUrl(kinopoisk: string): string
  {
    "https://voidboost.tv/embed/" + kinopoisk
  }

  /** The entry list as the providers append to it, one after the other. */
  function Entries(ps: seq<Option<string>>): seq<string>
    decreases |ps|
  {
    if |ps| == 0 then []
    else Entries(ps[..|ps| - 1]) + (match ps[|ps| - 1] case None => [] case Some(e) => [e])
  }

  /** `/cache`: every entry followed by a comma inside braces, then `},}` patched to `}}`. */
  function LegacyCache(kinopoisk: string, up: LegacyUpstream): string
  {
    LegacyRender(Entries(Providers(kinopoisk, up)))
  }

  /** Entries keep provider order, and a provider that fails removes only its own entry:
      the providers before and after it are untouched. */
  lemma {:induction false} EntriesSplit(ps: seq<Option<string>>, qs: seq<Option<string>>)
    ensures Entries(ps + qs) == Entries(ps) + Entries(qs)
    decreases |qs|
  {
    if |qs| == 0 {
      assert ps + qs == ps;
    } else {
      var init := qs[..|qs| - 1];
      var last := match qs[|qs| - 1] case None => [] case Some(e) => [e];
      assert (ps + qs)[..|ps + qs| - 1] == ps + init;
      assert (ps + qs)[|ps + qs| - 1] == qs[|qs| - 1];
      calc {
        Entries(ps + qs);
        Entries(ps + init) + last;
        { EntriesSplit(ps, init); }
        (Entries(ps) + Entries(init)) + last;
        Entries(ps) + (Entries(init) + last);
      }
    }
  }

  /** A failing provider leaves exactly the entries of the others. */
  lemma FailureIsLocal(ps: seq<Option<string>>, i: nat)
    requires i < |ps|
    ensures Entries(ps[i := None]) == Entries(ps[..i]) + Entries(ps[i + 1..])
    ensures ps[i].Some? ==> Entries(ps) == Entries(ps[..i]) + [ps[i].value] + Entries(ps[i + 1..])
  {
    var qs := ps[i := None];
    assert qs == ps[..i] + [None] + ps[i + 1..];
    EntriesAround(ps[..i], None, ps[i + 1..]);
    if ps[i].Some? {
      assert ps == ps[..i] + [ps[i]] + ps[i + 1..];
      EntriesAround(ps[..i], ps[i], ps[i + 1..]);
    }
  }

  /** The entries around one provider: those before it, its own, those after it. */
  lemma EntriesAround(a: seq<Option<string>>, x: Option<string>, b: seq<Option<string>>)
    ensures Entries(a + [x] + b) == Entries(a) + (match x case None => [] case Some(e) => [e]) + Entries(b)
  {
    EntriesSplit(a + [x], b);
    assert (a + [x])[..|a|] == a;
  }

  /** Providers that all failed contribute nothing. */
  lemma {:induction false} FailuresContributeNothing(ps: seq<Option<string>>)
    requires forall i :: 0 <= i < |ps| ==> ps[i].None?
    ensures Entries(ps) == []
    decreases |ps|
  {
    if |ps| > 0 {
      FailuresContributeNothing(ps[..|ps| - 1]);
    }
  }

  /** When every provider fails, the answer is the empty object. */
  lemma AllFailedIsEmpty(kinopoisk: string, status: Option<int>)
    requires status.None? || status.value == 404
    ensures LegacyCache(kinopoisk, LegacyUpstream(None, None, None, None, None, None, status)) == "{}"
  {
    FailuresContributeNothing(Providers(kinopoisk, LegacyUpstream(None, None, None, None, None, None, status)));
    RenderEmpty();
  }

  /** Voidboost is added exactly when the embed page did not answer 404, pointing at that
      page. */
  lemma VoidboostGate(kinopoisk: string, up: LegacyUpstream)
    ensures Providers(kinopoisk, up)[6].Some? <==> up.voidboost.Some? && up.voidboost.value != 404
    ensures Providers(kinopoisk, up)[6].Some? && '"' !in kinopoisk ==>
      DecodeRecord(Providers(kinopoisk, up)[6].value) == Some(Record("voidboost", VoidboostUrl(kinopoisk), "voidboost", ""))
  {
    if up.voidboost.Some? && up.voidboost.value != 404 && '"' !in kinopoisk {
      RecordRoundTrip("voidboost", VoidboostUrl(kinopoisk), "voidboost", "");
    }
  }

  /** An empty bazon list still adds an entry: the empty string. */
  lemma EmptyBazonEntry(kinopoisk: string)
    ensures Entries(Providers(kinopoisk, LegacyUpstream(None, None, None, None, Some([]), None, None))) == [""]
  {
    var ps := Providers(kinopoisk, LegacyUpstream(None, None, None, None, Some([]), None, None));
    assert BazonRecords([]) == [];
    assert BazonEntry([]) == "";
    var before: seq<Option<string>> := ps[..4];
    var after: seq<Option<string>> := ps[5..];
    assert ps == before + [Some("")] + after;
    EntriesSplit(before + [Some("")], after);
    EntriesSplit(before, [Some("")]);
    FailuresContributeNothing(before);
    FailuresContributeNothing(after);
    assert [Some("")][..0] == [];
  }

  /** Alone, that empty entry renders as `{,}`, which is not a JSON object. */
  lemma EmptyBazonBody(kinopoisk: string)
    ensures LegacyCache(kinopoisk, LegacyUpstream(None, None, None, None, Some([]), None, None)) == "{,}"
  {
    EmptyBazonEntry(kinopoisk);
    assert LegacyBody([""]) == "," by { assert [""][..0] == []; }
    assert "{" + "," + "}" == "{,}";
    assert "{,}"[..3] != "},}" by { assert "{,}"[..3][0] == '{'; }
    assert "{,}"[1..] == ",}";
  }

  // ---------------------------------------------------------------- search

  /** A film of the catalogue API. `year` is the text `str()` gives for it, `None` for a
      missing year. */
  datatype Film = Film(id: int, nameRu: Option<string>, nameEn: Option<string>, nameOriginal: Option<string>,
                       year: Option<string>, typeName: string, poster: string)

  /** One element of the search answer. */
  datatype Movie = Movie(id: int, title: string, poster: string)

  /** The search answer, or the fall-back to the second catalogue library, taken when the
      keyword part raised. */
  datatype SearchAnswer = Movies(movies: seq<Movie>) | Fallback

  /** `name_ru`, or `name_en` when `name_ru` is `None`. */
  function NameOf(f: Film): Option<string>
  {
    if f.nameRu.None? then f.nameEn else f.nameRu
  }

  /** `str(film.year)`: a missing year prints as `None`. */
  function YearText(y: Option<string>): string
  {
    match y
    case None => "None"
    case Some(t) => t
  }

  /** `name + ' (' + str(year) + ') ' + type.name`. */
  function Title(f: Film): string
    requires NameOf(f).Some?
  {
    NameOf(f).value + " (" + YearText(f.year) + ") " + f.typeName
  }

  /** The answer element for a film whose name is known. */
  function MovieOf(f: Film): Movie
    requires NameOf(f).Some?
  {
    Movie(f.id, Title(f), f.poster)
  }

  /** The keyword results keep films whose year is neither missing nor the text `None` or
      `null`. */
  predicate Dated(f: Film)
  {
    f.year.Some? && f.year.value != "None" && f.year.value != "null"
  }

  /** The keyword loop: undated films skipped, the rest turned into movies; a dated film
      without a name makes the concatenation raise. */
  function KeywordMovies(films: seq<Film>): Option<seq<Movie>>
    decreases |films|
  {
    if |films| == 0 then Some([])
    else
      var f := films[|films| - 1];
      match KeywordMovies(films[..|films| - 1])
      case None => None
      case Some(ms) =>
        if !Dated(f) then Some(ms)
        else if NameOf(f).None? then None
        else Some(ms + [MovieOf(f)])
  }

  /** Reference reading of the year filter. */
  function DatedFilms(films: seq<Film>): seq<Film>
    decreases |films|
  {
    if |films| == 0 then []
    else if Dated(films[0]) then [films[0]] + DatedFilms(films[1..])
    else DatedFilms(films[1..])
  }

  /** The filter keeps exactly the dated films, in their order. */
  lemma {:induction false} DatedFilmsSpec(films: seq<Film>)
    ensures forall f :: f in DatedFilms(films) ==> Dated(f) && f in films
    ensures forall i :: 0 <= i < |films| && Dated(films[i]) ==> films[i] in DatedFilms(films)
    ensures |DatedFilms(films)| <= |films|
    decreases |films|
  {
    if |films| > 0 {
      DatedFilmsSpec(films[1..]);
      forall i | 0 <= i < |films| && Dated(films[i])
        ensures films[i] in DatedFilms(films)
      {
        if i > 0 {
          assert films[1..][i - 1] == films[i];
        }
      }
    }
  }

  /** Every film has a name to print. */
  predicate AllNamed(fs: seq<Film>)
  {
    forall i :: 0 <= i < |fs| ==> NameOf(fs[i]).Some?
  }

  /** The answer elements for named films, in order. */
  function MoviesOf(fs: seq<Film>): (ms: seq<Movie>)
    requires AllNamed(fs)
    ensures |ms| == |fs|
    ensures forall i :: 0 <= i < |fs| ==> ms[i] == MovieOf(fs[i])
  {
    seq(|fs|, i requires 0 <= i < |fs| && AllNamed(fs) => MovieOf(fs[i]))
  }

  /** The filter handles one more film at the end on its own. */
  lemma {:induction false} DatedFilmsSnoc(films: seq<Film>, f: Film)
    ensures DatedFilms(films + [f]) == DatedFilms(films) + (if Dated(f) then [f] else [])
    decreases |films|
  {
    if |films| == 0 {
      assert [f][1..] == [];
    } else {
      assert (films + [f])[1..] == films[1..] + [f];
      DatedFilmsSnoc(films[1..], f);
    }
  }

  /** The keyword loop is the year filter followed by the title format: it succeeds
      exactly when every dated film has a name, and then keeps the dated films in order. */
  lemma {:induction false} KeywordMoviesAreDated(films: seq<Film>)
    ensures KeywordMovies(films).Some? <==> AllNamed(DatedFilms(films))
    ensures KeywordMovies(films).Some? ==> KeywordMovies(films).value == MoviesOf(DatedFilms(films))
    decreases |films|
  {
    if |films| > 0 {
      var init := films[..|films| - 1];
      var f := films[|films| - 1];
      assert films == init + [f];
      KeywordMoviesAreDated(init);
      DatedFilmsSnoc(init, f);
      var d := DatedFilms(init);
      if Dated(f) {
        assert DatedFilms(films) == d + [f];
        assert (d + [f])[|d|] == f;
        assert forall i :: 0 <= i < |d| ==> (d + [f])[i] == d[i];
      } else {
        assert DatedFilms(films) == d;
      }
    }
  }

  /** `str.isdigit()` on ASCII text: non-empty and all digits. */
  predicate IsDigitText(s: string)
  {
    |s| > 0 && AllDigits(s)
  }

  /** `/search/{query}`: for an all-digit query the film with that id comes first, when
      its lookup succeeded and it has a name; then the keyword results. `films` is `None`
      when the keyword request itself raised. */
  function LegacySearch(query: string, byId: Option<Film>, films: Option<seq<Film>>): SearchAnswer
  {
    var first := if IsDigitText(query) && byId.Some? && NameOf(byId.value).Some? then [MovieOf(byId.value)] else [];
    match films
    case None => Fallback
    case Some(fs) =>
      match KeywordMovies(fs)
      case None => Fallback
      case Some(ms) => Movies(first + ms)
  }

  /** The search falls back exactly when the keyword request raised or a dated film has no
      name; the by-id lookup never causes it. */
  lemma SearchFallsBack(query: string, byId: Option<Film>, films: Option<seq<Film>>)
    ensures LegacySearch(query, byId, films) == Fallback <==>
      films.None? || !AllNamed(DatedFilms(films.value))
  {
    if films.Some? {
      KeywordMoviesAreDated(films.value);
    }
  }

  /** The by-id movie leads the answer for a digit query; for any other query the answer
      is the keyword results alone. */
  lemma ByIdComesFirst(query: string, byId: Film, films: seq<Film>)
    requires KeywordMovies(films).Some?
    ensures IsDigitText(query) && NameOf(byId).Some? ==>
      LegacySearch(query, Some(byId), Some(films)).movies == [MovieOf(byId)] + KeywordMovies(films).value
    ensures !IsDigitText(query) ==>
      LegacySearch(query, Some(byId), Some(films)).movies == KeywordMovies(films).value
  {
  }

  /** The title format: `Матрица (1999) FILM`, with the English name used when the Russian
      one is missing, and a missing year printed as `None`. */
  lemma TitleExamples()
    ensures Title(Film(301, Some("Матрица"), Some("The Matrix"), None, Some("1999"), "FILM", "")) == "Матрица (1999) FILM"
    ensures Title(Film(301, None, Some("The Matrix"), None, None, "FILM", "")) == "The Matrix (None) FILM"
  {
  }
}

=== FILE: server.dfy ===
/**
  The `/cache` handler of the modern server: the early answers (no id, the shiki route,
  an id that is not an integer, id 0, a blocked id), then the ten adapters run together
  under a per-task timeout, their records merged in task order and rendered as one
  JSON object.
 */
module Server {
  import opened Wrappers
  import opened Text
  import opened Wire
  import opened Kodik
  import opened Adapters

  /** What the handler answers: a status, a body and, when the stats insert was attempted,
      the id it was recorded under; or an exception nothing catches (the framework then
      answers with its own 500 page). */
  datatype Response = Respond(status: int, body: string, stats: Option<string>) | Unhandled

  /** `json({})`. */
  const EmptyJson: Response := Respond(200, "{}", None)

  // ---------------------------------------------------------------- merging

  /** The task list after `gather`: a task that missed its deadline is a timeout whatever
      the adapter would have produced. */
  function Gather(os: seq<Outcome>, late: set<nat>): (g: seq<Outcome>)
    ensures |g| == |os|
    ensures forall i :: 0 <= i < |os| ==> g[i] == (if i in late then TimedOut else os[i])
  {
    seq(|os|, i requires 0 <= i < |os| => if i in late then TimedOut else os[i])
  }

  /** The merge loop: outcomes visited in order, each one's records appended. */
  function Merge(os: seq<Outcome>): seq<string>
    decreases |os|
  {
    if |os| == 0 then [] else Merge(os[..|os| - 1]) + Records(os[|os| - 1])
  }

  /** Reference reading of the merge: each task's records, first task first. */
  function Flatten(os: seq<Outcome>): seq<string>
    decreases |os|
  {
    if |os| == 0 then [] else Records(os[0]) + Flatten(os[1..])
  }

  /** Merging two halves of the task list merges each half and concatenates. */
  lemma {:induction false} MergeAppend(a: seq<Outcome>, b: seq<Outcome>)
    ensures Merge(a + b) == Merge(a) + Merge(b)
    decreases |b|
  {
    if |b| == 0 {
      assert a + b == a;
    } else {
      var init, o := b[..|b| - 1], b[|b| - 1];
      SplitLast(a, b);
      calc {
        Merge(a + b);
        Merge((a + init) + [o]);
        { MergeSnoc(a + init, o); }
        Merge(a + init) + Records(o);
        { MergeAppend(a, init); }
        (Merge(a) + Merge(init)) + Records(o);
        Merge(a) + (Merge(init) + Records(o));
        { MergeSnoc(init, o); }
        Merge(a) + Merge(b);
      }
    }
  }

  /** Splitting the last element off a non-empty right operand. */
  lemma SplitLast<T>(a: seq<T>, b: seq<T>)
    requires |b| > 0
    ensures b == b[..|b| - 1] + [b[|b| - 1]]
    ensures a + b == (a + b[..|b| - 1]) + [b[|b| - 1]]
  {
    assert b == b[..|b| - 1] + [b[|b| - 1]];
  }

  /** One more outcome adds its records at the end. */
  lemma MergeSnoc(os: seq<Outcome>, o: Outcome)
    ensures Merge(os + [o]) == Merge(os) + Records(o)
  {
    assert (os + [o])[..|os|] == os;
  }


  /** The loop keeps task order: it agrees with the front-to-back reference. */
  lemma {:induction false} MergeIsFlatten(os: seq<Outcome>)
    ensures Merge(os) == Flatten(os)
    decreases |os|
  {
    if |os| > 0 {
      assert os == [os[0]] + os[1..];
      MergeAppend([os[0]], os[1..]);
      MergeIsFlatten(os[1..]);
      assert [os[0]][..0] == [];
    }
  }

  /** A record is in the merge exactly when some task contributed it. */
  lemma {:induction false} MergeMember(os: seq<Outcome>, e: string)
    ensures e in Merge(os) <==> exists i :: 0 <= i < |os| && e in Records(os[i])
    decreases |os|
  {
    if |os| > 0 {
      var init := os[..|os| - 1];
      MergeMember(init, e);
      if e in Merge(os) {
        if e !in Merge(init) {
          assert e in Records(os[|os| - 1]);
        } else {
          var i :| 0 <= i < |init| && e in Records(init[i]);
          assert os[i] == init[i];
        }
      }
      if exists i :: 0 <= i < |os| && e in Records(os[i]) {
        var i :| 0 <= i < |os| && e in Records(os[i]);
        if i < |init| {
          assert init[i] == os[i];
        }
      }
    }
  }

  /** Nothing is merged exactly when no task contributed a record. */
  lemma MergeEmpty(os: seq<Outcome>)
    ensures Merge(os) == [] <==> forall i :: 0 <= i < |os| ==> Records(os[i]) == []
  {
    var m := Merge(os);
    if |m| > 0 {
      MergeMember(os, m[0]);
    }
    forall i | 0 <= i < |os|
      ensures m == [] ==> Records(os[i]) == []
    {
      var r := Records(os[i]);
      if |r| > 0 {
        MergeMember(os, r[0]);
      }
    }
  }

  /** What a late task would have produced has no effect on the merge. */
  lemma GatherIgnoresLate(os: seq<Outcome>, os2: seq<Outcome>, late: set<nat>)
    requires |os| == |os2|
    requires forall i :: 0 <= i < |os| && i !in late ==> os[i] == os2[i]
    ensures Merge(Gather(os, late)) == Merge(Gather(os2, late))
  {
    assert Gather(os, late) == Gather(os2, late);
  }

  /** When every task is late, nothing is merged. */
  lemma AllLateMergesNothing(os: seq<Outcome>, late: set<nat>)
    requires forall i :: 0 <= i < |os| ==> i in late
    ensures Merge(Gather(os, late)) == []
  {
    var g := Gather(os, late);
    MergeEmpty(g);
    assert forall i :: 0 <= i < |g| ==> g[i] == TimedOut;
  }

  // ---------------------------------------------------------------- the handler

  /** Where the request stands once the `shiki` route is decided: answered already, or an
      id to parse. */
  datatype Start = Answered(response: Response) | Continue(kinopoisk: string)

  /** The form's `kinopoisk` field and the Kodik reply to the shikimori query built from
      it (`shiki` removed, then every non-digit). A list of mirrors is the answer; an error
      on the way is an empty object; a `kinopoisk_id` carries on as the id, and a null one
      makes `int(None)` raise a `TypeError` the handler does not catch. */
  function Begin(kinopoisk: Option<string>, shiki: ShikiReply): Start
  {
    match kinopoisk
    case None => Answered(EmptyJson)
    case Some(k) =>
      if StartsWith(k, "shiki") then
        match CacheKodik(shiki)
        case LookupFailed => Answered(EmptyJson)
        case Mirrors(body) => Answered(Respond(200, body, None))
        case FoundId(id) => if id.Str? then Continue(id.text) else Answered(Unhandled)
      else Continue(k)
  }

  /** The shikimori id the shiki route asks Kodik about. */
  function ShikiQuery(k: string): (r: string)
    ensures AllDigits(r)
  {
    ShikiQueryId(ReplaceAll(k, "shiki", ""))
  }

  /** After the shiki route: `int()` on the id, the zero and block checks, the film lookup
      (which raises when the catalogue API fails), then the dispatch. The adapters get the
      id as text, exactly as it came in. */
  function Lookup(k: string, referer: Option<string>, blocked: set<int>, filmFound: bool,
                  up: Upstream, late: set<nat>): Response
  {
    match ParseInt(k)
    case None => Respond(500, "Not int", None)
    case Some(id) =>
      if id == 0 then EmptyJson
      else if id in blocked then Respond(403, "Item blocked", None)
      else if !filmFound then Unhandled
      else
        var iframes := Merge(Gather(Dispatch(k, referer, up), late));
        Respond(200, Render(iframes), if |iframes| > 0 then Some(k) else None)
  }

  function CacheRequest(kinopoisk: Option<string>, referer: Option<string>, shiki: ShikiReply,
                        blocked: set<int>, filmFound: bool, up: Upstream, late: set<nat>): Response
  {
    match Begin(kinopoisk, shiki)
    case Answered(r) => r
    case Continue(k) => Lookup(k, referer, blocked, filmFound, up, late)
  }

  /** Every answer given before the dispatch is independent of the adapters, the
      deadlines and the referer: no provider is contacted. */
  lemma EarlyAnswersIgnoreUpstream(kinopoisk: Option<string>, shiki: ShikiReply, blocked: set<int>,
                                   referer: Option<string>, filmFound: bool, up: Upstream, late: set<nat>,
                                   referer2: Option<string>, filmFound2: bool, up2: Upstream, late2: set<nat>)
    requires Begin(kinopoisk, shiki).Answered? ||
      var id := ParseInt(Begin(kinopoisk, shiki).kinopoisk); id.None? || id.value == 0 || id.value in blocked
    ensures CacheRequest(kinopoisk, referer, shiki, blocked, filmFound, up, late)
         == CacheRequest(kinopoisk, referer2, shiki, blocked, filmFound2, up2, late2)
    ensures CacheRequest(kinopoisk, referer, shiki, blocked, filmFound, up, late).Respond? ==>
      CacheRequest(kinopoisk, referer, shiki, blocked, filmFound, up, late).stats.None?
  {
  }

  /** No `kinopoisk` field: an empty object. */
  lemma MissingIdIsEmpty(referer: Option<string>, shiki: ShikiReply, blocked: set<int>,
                         filmFound: bool, up: Upstream, late: set<nat>)
    ensures CacheRequest(None, referer, shiki, blocked, filmFound, up, late) == Respond(200, "{}", None)
  {
  }

  /** The shiki route: the mirrors page is the whole answer; a failed lookup is an empty
      object; a found id replaces the requested one and goes on as if it had been sent. */
  lemma ShikiRoute(k: string, referer: Option<string>, shiki: ShikiReply, blocked: set<int>,
                   filmFound: bool, up: Upstream, late: set<nat>)
    requires StartsWith(k, "shiki")
    ensures CacheKodik(shiki).Mirrors? ==>
      CacheRequest(Some(k), referer, shiki, blocked, filmFound, up, late) == Respond(200, CacheKodik(shiki).body, None)
    ensures CacheKodik(shiki).LookupFailed? ==>
      CacheRequest(Some(k), referer, shiki, blocked, filmFound, up, late) == EmptyJson
    ensures CacheKodik(shiki) == FoundId(Null) ==>
      CacheRequest(Some(k), referer, shiki, blocked, filmFound, up, late) == Unhandled
    ensures CacheKodik(shiki).FoundId? && CacheKodik(shiki).id.Str? ==>
      CacheRequest(Some(k), referer, shiki, blocked, filmFound, up, late)
        == Lookup(CacheKodik(shiki).id.text, referer, blocked, filmFound, up, late)
  {
  }

  /** Without the prefix the id goes straight to `int()`, whatever the Kodik reply. */
  lemma PlainIdSkipsShiki(k: string, referer: Option<string>, shiki: ShikiReply, blocked: set<int>,
                          filmFound: bool, up: Upstream, late: set<nat>)
    requires !StartsWith(k, "shiki")
    ensures CacheRequest(Some(k), referer, shiki, blocked, filmFound, up, late)
         == Lookup(k, referer, blocked, filmFound, up, late)
  {
  }

  /** The dispatched answer: the merged records rendered, with stats recorded under the id
      exactly when there was at least one record. */
  lemma DispatchAnswer(k: string, referer: Option<string>, blocked: set<int>, up: Upstream, late: set<nat>)
    requires ParseInt(k).Some? && ParseInt(k).value != 0 && ParseInt(k).value !in blocked
    ensures var iframes := Flatten(Gather(Dispatch(k, referer, up), late));
      var r := Lookup(k, referer, blocked, true, up, late);
      r.Respond? && r.status == 200 && r.body == Render(iframes) &&
      (r.stats.Some? <==> |iframes| > 0) && (r.stats.Some? ==> r.stats.value == k)
  {
    MergeIsFlatten(Gather(Dispatch(k, referer, up), late));
  }

  /** Merging well-formed outcomes, some of them timed out, keeps only closed records. */
  lemma MergedClosed(os: seq<Outcome>, late: set<nat>)
    requires forall o :: o in os ==> WellFormed(o)
    ensures forall e :: e in Merge(Gather(os, late)) ==> Closed(e)
  {
    var g := Gather(os, late);
    forall e | e in Merge(g)
      ensures Closed(e)
    {
      MergeMember(g, e);
      var i :| 0 <= i < |g| && e in Records(g[i]);
      assert os[i] in os;
      WellFormedRecords(g[i], e);
    }
  }

  /** The dispatched body is `{}` when nothing was merged; otherwise the last record's
      closing brace is followed directly by the object's, never by a comma. */
  lemma DispatchBodyCloses(k: string, referer: Option<string>, blocked: set<int>, up: Upstream, late: set<nat>)
    requires ParseInt(k).Some? && ParseInt(k).value != 0 && ParseInt(k).value !in blocked
    ensures var r := Lookup(k, referer, blocked, true, up, late);
      r.Respond? && (r.stats.None? ==> r.body == "{}") && (r.stats.Some? ==> EndsWith(r.body, "}}"))
  {
    var iframes := Merge(Gather(Dispatch(k, referer, up), late));
    if |iframes| == 0 {
      RenderEmpty();
    } else {
      DispatchWellFormed(k, referer, up);
      MergedClosed(Dispatch(k, referer, up), late);
      assert iframes[|iframes| - 1] in iframes;
      RenderClosesCleanly(iframes);
    }
  }

  /** When no task answers in time the body is the empty object and nothing is recorded. */
  lemma AllLateIsEmpty(k: string, referer: Option<string>, blocked: set<int>, up: Upstream, late: set<nat>)
    requires ParseInt(k).Some? && ParseInt(k).value != 0 && ParseInt(k).value !in blocked
    requires forall i :: 0 <= i < 10 ==> i in late
    ensures Lookup(k, referer, blocked, true, up, late) == Respond(200, "{}", None)
  {
    AllLateMergesNothing(Dispatch(k, referer, up), late);
    RenderEmpty();
  }

  /** Letters are not an integer. */
  lemma NotIntExample(referer: Option<string>, filmFound: bool, up: Upstream, late: set<nat>)
    ensures Lookup("abc", referer, {}, filmFound, up, late) == Respond(500, "Not int", None)
  {
    ParseIntTrimmed("abc");
    assert !IsDigitGroups("abc") by { assert !IsDigit('a'); }
  }

  /** `00` is the integer 0: an empty object. */
  lemma ZeroExample(referer: Option<string>, filmFound: bool, up: Upstream, late: set<nat>)
    ensures Lookup("00", referer, {}, filmFound, up, late) == EmptyJson
  {
    ParseIntTrimmed("00");
    DigitStringValue("00");
    assert DigitsValue("00") == 0 by { assert "00"[..1] == "0"; }
  }

  /** Whitespace around a blocked id does not get it through. */
  lemma PaddedBlockedId(w1: string, d: string, w2: string, referer: Option<string>, blocked: set<int>,
                        filmFound: bool, up: Upstream, late: set<nat>)
    requires AllIntSpace(w1) && AllIntSpace(w2) && |d| > 0 && AllDigits(d)
    requires DigitsValue(d) != 0 && DigitsValue(d) as int in blocked
    ensures Lookup(w1 + d + w2, referer, blocked, filmFound, up, late) == Respond(403, "Item blocked", None)
  {
    PaddedDigits(w1, d, w2);
  }

}

=== FILE: text.dfy ===
/**
  String primitives with the meaning Python gives them, on `string` (= `seq<char>`).
  Only the ASCII subset of Python's Unicode-aware behaviour is modelled: whitespace is
  the six ASCII whitespace characters and digits are '0'..'9'.
 */
module Text {
  import opened Wrappers

  // ---------------------------------------------------------------- searching

  /** `sub` occurs in `s` starting at index `i`. */
  predicate OccursAt(s: string, sub: string, i: nat)
  {
    i + |sub| <= |s| && s[i..i + |sub|] == sub
  }

  /** Python's `s.find(sub, start)`. Its meaning is stated by `FindFromSpec`. */
  function FindFrom(s: string, sub: string, start: nat): int
    decreases |s| - start
  {
    if start + |sub| > |s| then -1
    else if s[start..start + |sub|] == sub then start
    else FindFrom(s, sub, start + 1)
  }

  /** `find` gives the least index at or after `start` where `sub` occurs, or -1 when
      there is none (also when `start` lies beyond the end). */
  lemma {:induction false} FindFromSpec(s: string, sub: string, start: nat)
    ensures var r := FindFrom(s, sub, start); r == -1 || (start <= r && OccursAt(s, sub, r))
    ensures var r := FindFrom(s, sub, start);
      forall i: nat :: start <= i && (r == -1 || i < r) ==> !OccursAt(s, sub, i)
    decreases |s| - start
  {
    if start + |sub| > |s| {
    } else if s[start..start + |sub|] == sub {
    } else {
      FindFromSpec(s, sub, start + 1);
    }
  }

  /** Python's `sub in s`. */
  predicate Contains(s: string, sub: string)
  {
    FindFrom(s, sub, 0) >= 0
  }

  /** With no occurrence at or after `start`, `find` gives -1. */
  lemma {:induction false} FindFromAbsent(s: string, sub: string, start: nat)
    requires forall i: nat :: start <= i ==> !OccursAt(s, sub, i)
    ensures FindFrom(s, sub, start) == -1
    decreases |s| - start
  {
    if start + |sub| <= |s| {
      assert !OccursAt(s, sub, start);
      FindFromAbsent(s, sub, start + 1);
    }
  }

  /** `find` stops at the first occurrence at or after `start`. */
  lemma {:induction false} FindFromFirst(s: string, sub: string, start: nat, k: nat)
    requires start <= k && OccursAt(s, sub, k)
    requires forall i: nat :: start <= i < k ==> !OccursAt(s, sub, i)
    ensures FindFrom(s, sub, start) == k
    decreases k - start
  {
    if start < k {
      assert !OccursAt(s, sub, start);
      FindFromFirst(s, sub, start + 1, k);
    }
  }

  /** `sub in s` holds exactly when some index of `s` starts an occurrence of `sub`. */
  lemma ContainsIff(s: string, sub: string)
    ensures Contains(s, sub) <==> exists i: nat :: OccursAt(s, sub, i)
  {
    FindFromSpec(s, sub, 0);
    if exists i: nat :: OccursAt(s, sub, i) {
      var i: nat :| OccursAt(s, sub, i);
      assert FindFrom(s, sub, 0) != -1;
    }
  }

  /** Every string contains the empty string, so `"" in s` is always true. */
  lemma ContainsEmpty(s: string)
    ensures Contains(s, "")
  {
    FindFromSpec(s, "", 0);
    assert OccursAt(s, "", 0);
  }

  /** A string that lies inside `t` is found in any string that has `t` at index `k`. */
  lemma ContainsWithin(s: string, t: string, k: nat, sub: string)
    requires OccursAt(s, t, k)
    requires Contains(t, sub)
    ensures Contains(s, sub)
  {
    ContainsIff(t, sub);
    var i: nat :| OccursAt(t, sub, i);
    forall j | 0 <= j < |sub|
      ensures s[k + i + j] == sub[j]
    {
      assert t[i..i + |sub|][j] == t[i + j];
      assert s[k..k + |t|][i + j] == s[k + i + j];
    }
    assert s[k + i..k + i + |sub|] == sub;
    assert OccursAt(s, sub, k + i);
    ContainsIff(s, sub);
  }

  predicate StartsWith(s: string, prefix: string)
  {
    |prefix| <= |s| && s[..|prefix|] == prefix
  }

  // ---------------------------------------------------------------- replacing

  /** Python's `s.replace(p, r)` for a non-empty `p`: a single left-to-right pass that
      replaces each non-overlapping occurrence; text produced by a replacement is not
      rescanned. */
  function ReplaceAll(s: string, p: string, r: string): string
    requires |p| > 0
    decreases |s|
  {
    if |s| < |p| then s
    else if s[..|p|] == p then r + ReplaceAll(s[|p|..], p, r)
    else [s[0]] + ReplaceAll(s[1..], p, r)
  }

  /** Replacing a pattern that does not occur changes nothing. */
  lemma {:induction false} ReplaceAbsent(s: string, p: string, r: string)
    requires |p| > 0
    requires !Contains(s, p)
    ensures ReplaceAll(s, p, r) == s
    decreases |s|
  {
    ContainsIff(s, p);
    if |s| >= |p| {
      assert !OccursAt(s, p, 0);
      assert s[..|p|] != p;
      if Contains(s[1..], p) {
        ContainsWithin(s, s[1..], 1, p);
      }
      ReplaceAbsent(s[1..], p, r);
      assert [s[0]] + s[1..] == s;
    }
  }

  /** When no occurrence of `p` starts inside the prefix `a`, the prefix is copied
      unchanged and the pass continues on `b`. */
  lemma {:induction false} ReplaceSkipsPrefix(a: string, b: string, p: string, r: string)
    requires |p| > 0
    requires forall i: nat :: i < |a| ==> !OccursAt(a + b, p, i)
    ensures ReplaceAll(a + b, p, r) == a + ReplaceAll(b, p, r)
    decreases |a|
  {
    if |a| == 0 {
      assert a + b == b;
    } else {
      var s := a + b;
      var t := a[1..] + b;
      assert s[1..] == t;
      assert forall i: nat :: i < |a[1..]| ==> !OccursAt(t, p, i) by {
        forall i: nat | i < |a[1..]|
          ensures !OccursAt(t, p, i)
        {
          assert !OccursAt(s, p, i + 1);
          if i + |p| <= |t| {
            assert t[i..i + |p|] == s[i + 1..i + 1 + |p|];
          }
        }
      }
      ReplaceSkipsPrefix(a[1..], b, p, r);
      assert ReplaceAll(s, p, r) == [a[0]] + ReplaceAll(t, p, r) by {
        assert !OccursAt(s, p, 0);
        if |s| >= |p| {
          assert s[..|p|] != p;
        }
      }
      assert [a[0]] + (a[1..] + ReplaceAll(b, p, r)) == a + ReplaceAll(b, p, r);
    }
  }

  /** Python's single-pass replace can leave the pattern behind: removing "shiki"
      from "shshikiiki" yields "shiki". */
  lemma ReplaceIsSinglePass()
    ensures ReplaceAll("shshikiiki", "shiki", "") == "shiki"
  {
    assert "shshikiiki"[..5][2] != "shiki"[2];
    assert "shshikiiki"[1..] == "hshikiiki";
    assert "hshikiiki"[..5][0] != "shiki"[0];
    assert "hshikiiki"[1..] == "shikiiki";
    assert "shikiiki"[..5] == "shiki";
    assert "shikiiki"[5..] == "iki";
  }

  // ---------------------------------------------------------------- whitespace

  /** The ASCII whitespace `int()` skips around its argument. */
  predicate IsIntSpace(c: char)
  {
    c == ' ' || c == '\t' || c == '\n' || c == '\r' || c == '\U{000B}' || c == '\U{000C}'
  }

  /** The information separators U+001C to U+001F: `str.isspace()` holds for them, so
      `strip()` removes them, but `int()` rejects them. */
  predicate IsSeparator(c: char)
  {
    '\U{001C}' <= c <= '\U{001F}'
  }

  /** The ASCII characters Python's `str.strip()` removes. */
  predicate IsSpace(c: char)
  {
    IsIntSpace(c) || IsSeparator(c)
  }

  predicate AllIntSpace(s: string)
  {
    forall i :: 0 <= i < |s| ==> IsIntSpace(s[i])
  }

  predicate HasSeparator(s: string)
  {
    exists i :: 0 <= i < |s| && IsSeparator(s[i])
  }

  predicate AllSpace(s: string)
  {
    forall i :: 0 <= i < |s| ==> IsSpace(s[i])
  }

  /** The first index at or after `i` that does not hold whitespace (`|s|` if none). */
  function SkipSpaces(s: string, i: nat): (r: nat)
    requires i <= |s|
    ensures i <= r <= |s|
    decreases |s| - i
  {
    if i < |s| && IsSpace(s[i]) then SkipSpaces(s, i + 1) else i
  }

  /** The end of `s[..j]` once its trailing whitespace is dropped. */
  function BackSpaces(s: string, j: nat): (r: nat)
    requires j <= |s|
    ensures r <= j
  {
    if j > 0 && IsSpace(s[j - 1]) then BackSpaces(s, j - 1) else j
  }

  /** Python's `s.lstrip()`. Its meaning is stated by `TrimStartSpec`. */
  function TrimStart(s: string): string
  {
    s[SkipSpaces(s, 0)..]
  }

  /** Python's `s.rstrip()`. Its meaning is stated by `TrimEndSpec`. */
  function TrimEnd(s: string): string
  {
    s[..BackSpaces(s, |s|)]
  }

  /** Python's `s.strip()`. Its meaning is stated by `StripSpec`. */
  function Strip(s: string): string
  {
    TrimEnd(TrimStart(s))
  }

  lemma {:induction false} SkipSpacesSpec(s: string, i: nat)
    requires i <= |s|
    ensures AllSpace(s[i..SkipSpaces(s, i)])
    ensures SkipSpaces(s, i) == |s| || !IsSpace(s[SkipSpaces(s, i)])
    decreases |s| - i
  {
    if i < |s| && IsSpace(s[i]) {
      SkipSpacesSpec(s, i + 1);
      var r := SkipSpaces(s, i);
      assert s[i..r] == [s[i]] + s[i + 1..r];
    }
  }

  lemma {:induction false} BackSpacesSpec(s: string, j: nat)
    requires j <= |s|
    ensures AllSpace(s[BackSpaces(s, j)..j])
    ensures BackSpaces(s, j) == 0 || !IsSpace(s[BackSpaces(s, j) - 1])
  {
    if j > 0 && IsSpace(s[j - 1]) {
      BackSpacesSpec(s, j - 1);
      var r := BackSpaces(s, j);
      assert s[r..j] == s[r..j - 1] + [s[j - 1]];
    }
  }

  /** `lstrip` removes a whitespace prefix and leaves a suffix that does not start with
      whitespace. */
  lemma TrimStartSpec(s: string)
    ensures var r := TrimStart(s); |r| <= |s| && r == s[|s| - |r|..]
    ensures var r := TrimStart(s); AllSpace(s[..|s| - |r|])
    ensures var r := TrimStart(s); |r| == 0 || !IsSpace(r[0])
  {
    SkipSpacesSpec(s, 0);
  }

  /** `rstrip` removes a whitespace suffix and leaves a prefix that does not end with
      whitespace. */
  lemma TrimEndSpec(s: string)
    ensures var r := TrimEnd(s); |r| <= |s| && r == s[..|r|]
    ensures var r := TrimEnd(s); AllSpace(s[|r|..])
    ensures var r := TrimEnd(s); |r| == 0 || !IsSpace(r[|r| - 1])
  {
    BackSpacesSpec(s, |s|);
  }

  /** `strip` leaves the slice of `s` after its leading whitespace with the trailing
      whitespace cut off, and that slice neither starts nor ends with whitespace. */
  lemma StripSpec(s: string)
    ensures |TrimStart(s)| <= |s|
    ensures var i := |s| - |TrimStart(s)|; var r := Strip(s);
      i + |r| <= |s| && r == s[i..i + |r|]
    ensures var i := |s| - |TrimStart(s)|; var r := Strip(s);
      i + |r| <= |s| && AllSpace(s[..i]) && AllSpace(s[i + |r|..])
    ensures var r := Strip(s); |r| == 0 || (!IsSpace(r[0]) && !IsSpace(r[|r| - 1]))
  {
    TrimStartSpec(s);
    var u := TrimStart(s);
    var i := |s| - |u|;
    TrimEndSpec(u);
    var r := Strip(s);
    forall k | i + |r| <= k < |s|
      ensures IsSpace(s[k])
    {
      assert s[k] == u[k - i];
      assert u[|r|..][k - i - |r|] == u[k - i];
    }
  }

  /** Strip keeps only characters of its input. */
  lemma StripChars(s: string, c: char)
    requires c !in s
    ensures c !in Strip(s)
  {
    StripSpec(s);
    var i := |s| - |TrimStart(s)|;
    var r := Strip(s);
    forall k | 0 <= k < |r|
      ensures r[k] != c
    {
      assert r[k] == s[i + k];
    }
  }

  /** A string with no whitespace at either end is its own strip. */
  lemma StripTrimmed(s: string)
    requires |s| == 0 || (!IsSpace(s[0]) && !IsSpace(s[|s| - 1]))
    ensures Strip(s) == s
  {
    assert SkipSpaces(s, 0) == 0;
    assert s[0..] == s;
  }

  /** Leading whitespace is exactly what `lstrip` removes. */
  lemma {:induction false} SkipPadding(w: string, y: string, i: nat)
    requires AllSpace(w) && i <= |w|
    requires |y| == 0 || !IsSpace(y[0])
    ensures SkipSpaces(w + y, i) == |w|
    decreases |w| - i
  {
    if i < |w| {
      assert (w + y)[i] == w[i];
      SkipPadding(w, y, i + 1);
    } else if |y| > 0 {
      assert (w + y)[i] == y[0];
    }
  }

  lemma TrimStartPadded(w: string, y: string)
    requires AllSpace(w)
    requires |y| == 0 || !IsSpace(y[0])
    ensures TrimStart(w + y) == y
  {
    SkipPadding(w, y, 0);
    assert (w + y)[|w|..] == y;
  }

  /** Trailing whitespace is exactly what `rstrip` removes. */
  lemma {:induction false} BackPadding(y: string, w: string, j: nat)
    requires AllSpace(w) && |y| <= j <= |y| + |w|
    requires |y| == 0 || !IsSpace(y[|y| - 1])
    ensures BackSpaces(y + w, j) == |y|
    decreases j
  {
    if j > |y| {
      assert (y + w)[j - 1] == w[j - 1 - |y|];
      BackPadding(y, w, j - 1);
    } else if |y| > 0 {
      assert (y + w)[j - 1] == y[|y| - 1];
    }
  }

  lemma TrimEndPadded(y: string, w: string)
    requires AllSpace(w)
    requires |y| == 0 || !IsSpace(y[|y| - 1])
    ensures TrimEnd(y + w) == y
  {
    BackPadding(y, w, |y| + |w|);
    assert (y + w)[..|y|] == y;
  }

  /** Strip undoes whitespace padding: its result is the unique trimmed core. */
  lemma StripPadded(w1: string, x: string, w2: string)
    requires AllSpace(w1) && AllSpace(w2)
    requires |x| == 0 || (!IsSpace(x[0]) && !IsSpace(x[|x| - 1]))
    requires |x| > 0 || |w2| == 0
    ensures Strip(w1 + x + w2) == x
  {
    assert w1 + x + w2 == w1 + (x + w2);
    TrimStartPadded(w1, x + w2);
    TrimEndPadded(x, w2);
  }

  /** The separators are whitespace to `strip()` but not to `int()`. */
  lemma SeparatorExamples()
    ensures Strip("\U{001C}a") == "a"
    ensures ParseInt("\U{001C}5") == None
  {
    StripPadded("\U{001C}", "a", "");
    assert "\U{001C}" + "a" + "" == "\U{001C}a";
    assert IsSeparator("\U{001C}5"[0]);
  }

  /** Stripping twice is stripping once. */
  lemma StripIdempotent(s: string)
    ensures Strip(Strip(s)) == Strip(s)
  {
    StripSpec(s);
    StripTrimmed(Strip(s));
  }

  // ---------------------------------------------------------------- join and split

  /** Python's `sep.join(xs)`. */
  function Join(sep: string, xs: seq<string>): string
    decreases |xs|
  {
    if |xs| == 0 then ""
    else if |xs| == 1 then xs[0]
    else xs[0] + sep + Join(sep, xs[1..])
  }

  /** Appending one more element appends the separator and that element. */
  lemma {:induction false} JoinSnoc(sep: string, xs: seq<string>, y: string)
    requires |xs| > 0
    ensures Join(sep, xs + [y]) == Join(sep, xs) + sep + y
    decreases |xs|
  {
    if |xs| == 1 {
      assert (xs + [y])[1..] == [y];
    } else {
      assert (xs + [y])[1..] == xs[1..] + [y];
      JoinSnoc(sep, xs[1..], y);
    }
  }

  /** A joined list ends with the end of its last element. */
  lemma {:induction false} JoinEndsWithLast(sep: string, xs: seq<string>)
    requires |xs| > 0 && |xs[|xs| - 1]| > 0
    ensures |Join(sep, xs)| > 0
    ensures Join(sep, xs)[|Join(sep, xs)| - 1] == xs[|xs| - 1][|xs[|xs| - 1]| - 1]
    decreases |xs|
  {
    if |xs| > 1 {
      JoinEndsWithLast(sep, xs[1..]);
    }
  }

  /** A joined list starts with the start of its first element. */
  lemma JoinStartsWithFirst(sep: string, xs: seq<string>)
    requires |xs| > 0 && |xs[0]| > 0
    ensures |Join(sep, xs)| > 0 && Join(sep, xs)[0] == xs[0][0]
  {
  }

  /** Joining the elements of a joined sub-list is joining the spliced list. */
  lemma {:induction false} JoinSplice(sep: string, xs: seq<string>, ys: seq<string>, zs: seq<string>)
    requires |ys| > 0
    ensures Join(sep, xs + [Join(sep, ys)] + zs) == Join(sep, xs + ys + zs)
    decreases |xs|
  {
    if |xs| == 0 {
      assert xs + [Join(sep, ys)] + zs == [Join(sep, ys)] + zs;
      assert xs + ys + zs == ys + zs;
      JoinAppend(sep, ys, zs);
      if |zs| > 0 {
        JoinCons(sep, Join(sep, ys), zs);
      } else {
        assert [Join(sep, ys)] + zs == [Join(sep, ys)];
        assert ys + zs == ys;
      }
    } else {
      JoinCons(sep, xs[0], xs[1..] + [Join(sep, ys)] + zs);
      assert xs + [Join(sep, ys)] + zs == [xs[0]] + (xs[1..] + [Join(sep, ys)] + zs);
      JoinSplice(sep, xs[1..], ys, zs);
      assert xs + ys + zs == [xs[0]] + (xs[1..] + ys + zs);
      JoinCons(sep, xs[0], xs[1..] + ys + zs);
    }
  }

  /** Putting one element in front of a non-empty list. */
  lemma JoinCons(sep: string, x: string, xs: seq<string>)
    requires |xs| > 0
    ensures Join(sep, [x] + xs) == x + sep + Join(sep, xs)
  {
    assert ([x] + xs)[1..] == xs;
  }

  /** Joining the concatenation of two non-empty lists. */
  lemma {:induction false} JoinAppend(sep: string, xs: seq<string>, ys: seq<string>)
    requires |xs| > 0
    ensures |ys| > 0 ==> Join(sep, xs + ys) == Join(sep, xs) + sep + Join(sep, ys)
    ensures |ys| == 0 ==> Join(sep, xs + ys) == Join(sep, xs)
    decreases |xs|
  {
    if |ys| == 0 {
      assert xs + ys == xs;
    } else if |xs| == 1 {
      JoinCons(sep, xs[0], ys);
      assert xs == [xs[0]];
    } else {
      var a, b, c := xs[0], Join(sep, xs[1..]), Join(sep, ys);
      calc {
        Join(sep, xs + ys);
        { assert xs + ys == [a] + (xs[1..] + ys); JoinCons(sep, a, xs[1..] + ys); }
        a + sep + Join(sep, xs[1..] + ys);
        { JoinAppend(sep, xs[1..], ys); }
        a + sep + (b + sep + c);
        (a + sep + b) + sep + c;
        { assert xs == [a] + xs[1..]; JoinCons(sep, a, xs[1..]); }
        Join(sep, xs) + sep + c;
      }
    }
  }

  /** A character is absent from a join when it is absent from the separator and all parts. */
  lemma {:induction false} JoinAvoids(sep: string, xs: seq<string>, c: char)
    requires c !in sep
    requires forall i :: 0 <= i < |xs| ==> c !in xs[i]
    ensures c !in Join(sep, xs)
    decreases |xs|
  {
    if |xs| > 1 {
      JoinAvoids(sep, xs[1..], c);
    }
  }

  /** Python's `s.rstrip(c)` for a single character. Its meaning is stated by `RStripCharSpec`. */
  function RStripChar(s: string, c: char): string
    decreases |s|
  {
    if |s| > 0 && s[|s| - 1] == c then RStripChar(s[..|s| - 1], c) else s
  }

  /** `rstrip` removes the longest run of `c` at the end, and nothing else. */
  lemma {:induction false} RStripCharSpec(s: string, c: char)
    ensures var r := RStripChar(s, c);
      |r| <= |s| && r == s[..|r|] && (|r| == 0 || r[|r| - 1] != c) &&
      forall i :: |r| <= i < |s| ==> s[i] == c
    decreases |s|
  {
    if |s| > 0 && s[|s| - 1] == c {
      RStripCharSpec(s[..|s| - 1], c);
    }
  }

  /** One trailing `c` after text that does not end in `c` is exactly what goes. */
  lemma RStripOne(x: string, c: char)
    requires |x| > 0 && x[|x| - 1] != c
    ensures RStripChar(x + [c], c) == x
  {
    assert (x + [c])[..|x|] == x;
  }

  /** Python's `s.split(c)` for a one-character separator. */
  function Split(s: string, c: char): (parts: seq<string>)
    ensures |parts| >= 1
    decreases |s|
  {
    if |s| == 0 then [""]
    else
      var rest := Split(s[1..], c);
      if s[0] == c then [""] + rest else [[s[0]] + rest[0]] + rest[1..]
  }

  /** Text without the separator splits into itself. */
  lemma {:induction false} SplitNone(s: string, c: char)
    requires c !in s
    ensures Split(s, c) == [s]
    decreases |s|
  {
    if |s| > 0 {
      SplitNone(s[1..], c);
      assert [s[0]] + s[1..] == s;
    }
  }

  /** The first separator ends the first part. */
  lemma {:induction false} SplitFirst(a: string, c: char, b: string)
    requires c !in a
    ensures Split(a + [c] + b, c) == [a] + Split(b, c)
    decreases |a|
  {
    var s := a + [c] + b;
    if |a| == 0 {
      assert s[1..] == b;
    } else {
      assert s[1..] == a[1..] + [c] + b;
      SplitFirst(a[1..], c, b);
      assert [a[0]] + a[1..] == a;
    }
  }

  /** Splitting undoes joining, as long as no part contains the separator. */
  lemma {:induction false} SplitJoin(xs: seq<string>, c: char)
    requires |xs| > 0
    requires forall i :: 0 <= i < |xs| ==> c !in xs[i]
    ensures Split(Join([c], xs), c) == xs
    decreases |xs|
  {
    if |xs| == 1 {
      SplitNone(xs[0], c);
    } else {
      SplitJoin(xs[1..], c);
      SplitFirst(xs[0], c, Join([c], xs[1..]));
      assert [xs[0]] + xs[1..] == xs;
    }
  }

  // ---------------------------------------------------------------- digits and integers

  predicate IsDigit(c: char)
  {
    '0' <= c <= '9'
  }

  predicate AllDigits(s: string)
  {
    forall i :: 0 <= i < |s| ==> IsDigit(s[i])
  }

  function DigitValue(c: char): nat
    requires IsDigit(c)
  {
    (c as int) - ('0' as int)
  }

  function DigitChar(d: nat): (c: char)
    requires d < 10
    ensures IsDigit(c) && DigitValue(c) == d
  {
    (('0' as int) + d) as char
  }

  /** The value of a decimal digit string, most significant digit first. */
  function DigitsValue(s: string): nat
    requires AllDigits(s)
    decreases |s|
  {
    if |s| == 0 then 0 else DigitsValue(s[..|s| - 1]) * 10 + DigitValue(s[|s| - 1])
  }

  /** `re.sub(r"[^0-9]", "", s)`: the digits of `s`, in order. */
  function DigitsOnly(s: string): (r: string)
    ensures AllDigits(r) && |r| <= |s|
    decreases |s|
  {
    if |s| == 0 then ""
    else (if IsDigit(s[0]) then [s[0]] else "") + DigitsOnly(s[1..])
  }

  /** Removing non-digits distributes over concatenation. */
  lemma {:induction false} DigitsOnlyAppend(a: string, b: string)
    ensures DigitsOnly(a + b) == DigitsOnly(a) + DigitsOnly(b)
    decreases |a|
  {
    if |a| > 0 {
      assert (a + b)[1..] == a[1..] + b;
      DigitsOnlyAppend(a[1..], b);
    } else {
      assert a + b == b;
    }
  }

  /** A digit string keeps every character. */
  lemma {:induction false} DigitsOnlyOfDigits(s: string)
    requires AllDigits(s)
    ensures DigitsOnly(s) == s
    decreases |s|
  {
    if |s| > 0 {
      DigitsOnlyOfDigits(s[1..]);
      assert [s[0]] + s[1..] == s;
    }
  }

  /** Removing "shiki" before dropping non-digits makes no difference: the digits of the
      result are the digits of the input. */
  lemma {:induction false} DigitsIgnoreShiki(s: string)
    ensures DigitsOnly(ReplaceAll(s, "shiki", "")) == DigitsOnly(s)
    decreases |s|
  {
    if |s| >= 5 {
      if s[..5] == "shiki" {
        DigitsIgnoreShiki(s[5..]);
        assert s == s[..5] + s[5..];
        DigitsOnlyAppend(s[..5], s[5..]);
        assert DigitsOnly(s[..5]) == "";
        assert "" + ReplaceAll(s[5..], "shiki", "") == ReplaceAll(s[5..], "shiki", "");
      } else {
        DigitsIgnoreShiki(s[1..]);
        DigitsOnlyAppend([s[0]], ReplaceAll(s[1..], "shiki", ""));
        DigitsOnlyAppend([s[0]], s[1..]);
        assert [s[0]] + s[1..] == s;
      }
    }
  }

  /** Python's `str(n)` for a natural number. */
  function NatToString(n: nat): (r: string)
    ensures |r| >= 1 && AllDigits(r)
    decreases n
  {
    if n < 10 then [DigitChar(n)] else NatToString(n / 10) + [DigitChar(n % 10)]
  }

  /** Reading back a printed natural number gives the number. */
  lemma {:induction false} NatToStringValue(n: nat)
    ensures DigitsValue(NatToString(n)) == n
    decreases n
  {
    var s := NatToString(n);
    if n < 10 {
      assert s[..0] == "";
    } else {
      NatToStringValue(n / 10);
      assert s[..|s| - 1] == NatToString(n / 10);
    }
  }

  /** Python's `str(i)` (also `f"{i}"`) for an integer. */
  function IntToString(i: int): (r: string)
    ensures |r| >= 1
  {
    if i < 0 then "-" + NatToString(-i) else NatToString(i)
  }

  /** Digits with single underscores between them: the body Python's `int()` accepts. */
  predicate IsDigitGroups(s: string)
  {
    && |s| > 0
    && IsDigit(s[0]) && IsDigit(s[|s| - 1])
    && (forall i :: 0 <= i < |s| ==> IsDigit(s[i]) || s[i] == '_')
    && (forall i :: 0 <= i < |s| - 1 ==> s[i] == '_' ==> s[i + 1] != '_')
  }

  /** The value of an unsigned `int()` body, or `None` when it is not one. */
  function ParseUnsigned(t: string): Option<int>
  {
    if IsDigitGroups(t) then Some(DigitsValue(DigitsOnly(t))) else None
  }

  /** Python's `int(s)` on a string, with `None` for the `ValueError` case: surrounding
      whitespace, an optional sign, then digits optionally grouped by single underscores.
      A separator character fails wherever it stands: around the number `int()` does not
      skip it, and inside it is no digit. */
  function ParseInt(s: string): Option<int>
  {
    var t := Strip(s);
    if HasSeparator(s) then None
    else if |t| > 0 && (t[0] == '+' || t[0] == '-') then
      match ParseUnsigned(t[1..])
      case None => None
      case Some(v) => Some(if t[0] == '-' then -v else v)
    else ParseUnsigned(t)
  }

  /** A plain digit string is a valid `int()` body whose value is its digits' value. */
  lemma DigitStringValue(d: string)
    requires |d| > 0 && AllDigits(d)
    ensures ParseUnsigned(d) == Some(DigitsValue(d))
  {
    assert IsDigitGroups(d);
    DigitsOnlyOfDigits(d);
  }

  /** `int()` of text that has no surrounding whitespace skips the strip. */
  lemma ParseIntTrimmed(s: string)
    requires |s| > 0 && !IsSpace(s[0]) && !IsSpace(s[|s| - 1])
    requires !HasSeparator(s)
    ensures ParseInt(s) == if s[0] == '+' || s[0] == '-' then
        match ParseUnsigned(s[1..])
        case None => None
        case Some(v) => Some(if s[0] == '-' then -v else v)
      else ParseUnsigned(s)
  {
    StripTrimmed(s);
  }

  /** `int(str(i)) == i`: printing an integer and parsing it back is the identity. */
  lemma IntToStringRoundTrip(i: int)
    ensures ParseInt(IntToString(i)) == Some(i)
  {
    var n: nat := if i < 0 then -i else i;
    var d := NatToString(n);
    NatToStringValue(n);
    if i < 0 {
      var s := "-" + d;
      assert s[1..] == d;
      NegativeDigits(s);
      assert IntToString(i) == s;
    } else {
      PlainDigits(d);
    }
  }

  /** A digit string parses to its value. */
  lemma PlainDigits(d: string)
    requires |d| > 0 && AllDigits(d)
    ensures ParseInt(d) == Some(DigitsValue(d) as int)
  {
    DigitStringValue(d);
    assert IsDigit(d[0]) && IsDigit(d[|d| - 1]);
    NoSeparatorIn(d);
    ParseIntTrimmed(d);
  }

  /** Digits and the six `int()` spaces are no separators. */
  lemma NoSeparatorIn(s: string)
    requires forall i :: 0 <= i < |s| ==> IsDigit(s[i]) || IsIntSpace(s[i]) || s[i] == '-'
    ensures !HasSeparator(s)
  {
  }

  /** A digit string padded with `int()` spaces holds no separator. */
  lemma PaddedNoSeparator(w1: string, d: string, w2: string)
    requires AllIntSpace(w1) && AllIntSpace(w2) && AllDigits(d)
    ensures !HasSeparator(w1 + d + w2)
  {
    var s := w1 + d + w2;
    forall i | 0 <= i < |s|
      ensures IsDigit(s[i]) || IsIntSpace(s[i]) || s[i] == '-'
    {
      if i < |w1| {
        assert s[i] == w1[i];
      } else if i < |w1| + |d| {
        assert s[i] == d[i - |w1|];
      } else {
        assert s[i] == w2[i - |w1| - |d|];
      }
    }
    NoSeparatorIn(s);
  }

  /** `int()` ignores whitespace around a digit string. */
  lemma PaddedDigits(w1: string, d: string, w2: string)
    requires AllIntSpace(w1) && AllIntSpace(w2)
    requires |d| > 0 && AllDigits(d)
    ensures ParseInt(w1 + d + w2) == Some(DigitsValue(d) as int)
  {
    assert IsDigit(d[0]) && IsDigit(d[|d| - 1]);
    PaddedNoSeparator(w1, d, w2);
    StripPadded(w1, d, w2);
    DigitStringValue(d);
  }

  /** A minus sign before a digit string parses to the negated value. */
  lemma NegativeDigits(s: string)
    requires |s| > 1 && s[0] == '-' && AllDigits(s[1..])
    ensures ParseInt(s) == Some(-(DigitsValue(s[1..]) as int))
  {
    var d := s[1..];
    DigitStringValue(d);
    assert IsDigit(d[|d| - 1]);
    forall i | 1 <= i < |s|
      ensures IsDigit(s[i])
    {
      assert s[i] == d[i - 1];
    }
    NoSeparatorIn(s);
    ParseIntTrimmed(s);
  }

  /** Distinct integers print differently. */
  lemma IntToStringInjective(i: int, j: int)
    requires i != j
    ensures IntToString(i) != IntToString(j)
  {
    IntToStringRoundTrip(i);
    IntToStringRoundTrip(j);
  }

  /** Distinct naturals print differently. */
  lemma NatToStringInjective(m: nat, n: nat)
    requires m != n
    ensures NatToString(m) != NatToString(n)
  {
    IntToStringInjective(m, n);
  }

  // ---------------------------------------------------------------- slicing

  /** How Python clamps a slice bound `i` for a sequence of length `n`. */
  function SliceBound(i: int, n: nat): (r: nat)
    ensures r <= n
  {
    if i < 0 then (if i + n < 0 then 0 else i + n)
    else if i > n then n
    else i
  }

  /** Python's `s[a:b]`: never fails; negative bounds count from the end. */
  function PySlice(s: string, a: int, b: int): string
  {
    var i := SliceBound(a, |s|);
    var j := SliceBound(b, |s|);
    if i < j then s[i..j] else ""
  }
}

=== FILE: wire.dfy ===
/**
  The hand-built JSON text of the aggregation service: one playback record per provider
  slot, `"S":{"iframe":"U","translate":"T","quality":"Q"}`, and the object that wraps the
  merged records. Nothing is escaped, so these are properties of plain text.
 */
module Wire {
  import opened Wrappers
  import opened Text

  /** The four fields of one record as they appear on the wire. */
  datatype Record = Record(source: string, iframe: string, translate: string, quality: string)

  /** One member of an upstream JSON object as the code reads it: a missing key (indexing
      raises `KeyError`), an explicit `null` (read as `None`), or a string. */
  datatype Field = Absent | Null | Str(text: string)

  /** How an f-string prints a present member: `null` comes out as `None`. */
  function FieldText(f: Field): (r: string)
    requires !f.Absent?
    ensures f.Str? ==> r == f.text
  {
    if f.Null? then "None" else f.text
  }

  /** The text between the double quotes of a record, in order. */
  function RecordPieces(s: string, u: string, t: string, q: string): seq<string>
  {
    ["", s, ":{", "iframe", ":", u, ",", "translate", ":", t, ",", "quality", ":", q, "}"]
  }

  /** The pieces are joined by double quotes, which gives
      `"S":{"iframe":"U","translate":"T","quality":"Q"}` by plain concatenation. This is
      the legacy server's `format_result` exactly; the modern one strips its fields first. */
  function RecordText(s: string, u: string, t: string, q: string): (r: string)
    ensures |r| > 0 && r[0] == '"' && r[|r| - 1] == '}'
  {
    var ps := RecordPieces(s, u, t, q);
    JoinEndsWithLast("\"", ps);
    Join("\"", ps)
  }

  /** The modern `format_result`: each field is whitespace-stripped, then concatenated. */
  function FormatResult(s: string, u: string, t: string, q: string): (r: string)
    ensures |r| > 0 && r[0] == '"' && r[|r| - 1] == '}'
  {
    RecordText(Strip(s), Strip(u), Strip(t), Strip(q))
  }

  /** The modern record strips surrounding whitespace from every field, shown on sample fields. */
  lemma FormatResultStripsFields()
    ensures FormatResult(" a ", "b\n", "\tc", "d") == RecordText("a", "b", "c", "d")
  {
    StripPadded(" ", "a", " ");
    StripPadded("", "b", "\n");
    StripPadded("\t", "c", "");
    StripPadded("", "d", "");
    assert " " + "a" + " " == " a " && "" + "b" + "\n" == "b\n" && "\t" + "c" + "" == "\tc" && "" + "d" + "" == "d";
  }

  /** The record's only `}` is its last character when no field contains one. */
  lemma RecordClosesOnce(s: string, u: string, t: string, q: string)
    requires '}' !in s && '}' !in u && '}' !in t && '}' !in q
    ensures var r := RecordText(s, u, t, q); '}' !in r[..|r| - 1]
  {
    var ps := RecordPieces(s, u, t, q);
    var front := ps[..14];
    assert front + ["}"] == ps;
    JoinSnoc("\"", front, "}");
    JoinAvoids("\"", front, '}');
    var r := RecordText(s, u, t, q);
    assert r[..|r| - 1] == Join("\"", front) + "\"";
  }

  /** Reads a record back from its text: the inverse of `RecordText` on quote-free fields. */
  function DecodeRecord(text: string): Option<Record>
  {
    var p := Split(text, '"');
    if |p| == 15 && p == RecordPieces(p[1], p[5], p[9], p[13]) then Some(Record(p[1], p[5], p[9], p[13]))
    else None
  }

  /** Decoding a record built from quote-free fields gives back exactly those fields. */
  lemma RecordRoundTrip(s: string, u: string, t: string, q: string)
    requires '"' !in s && '"' !in u && '"' !in t && '"' !in q
    ensures DecodeRecord(RecordText(s, u, t, q)) == Some(Record(s, u, t, q))
  {
    SplitJoin(RecordPieces(s, u, t, q), '"');
  }

  /** The modern record decodes to its stripped fields: the stripping is the only change. */
  lemma FormatResultRoundTrip(s: string, u: string, t: string, q: string)
    requires '"' !in s && '"' !in u && '"' !in t && '"' !in q
    ensures DecodeRecord(FormatResult(s, u, t, q)) == Some(Record(Strip(s), Strip(u), Strip(t), Strip(q)))
  {
    StripChars(s, '"');
    StripChars(u, '"');
    StripChars(t, '"');
    StripChars(q, '"');
    RecordRoundTrip(Strip(s), Strip(u), Strip(t), Strip(q));
  }

  // ---------------------------------------------------------------- the aggregate object

  /** The modern render: `"{" + ",".join(entries) + "}"`, then `.replace("},}", "}}")`. */
  function Render(entries: seq<string>): string
  {
    ReplaceAll("{" + Join(",", entries) + "}", "},}", "}}")
  }

  /** The legacy loop `result = result + iframe + ','` over the entries. */
  function LegacyBody(entries: seq<string>): string
    decreases |entries|
  {
    if |entries| == 0 then ""
    else LegacyBody(entries[..|entries| - 1]) + entries[|entries| - 1] + ","
  }

  /** The legacy render: braces around the comma-terminated entries, then the same replace. */
  function LegacyRender(entries: seq<string>): string
  {
    ReplaceAll("{" + LegacyBody(entries) + "}", "},}", "}}")
  }

  /** An empty aggregate renders as exactly `{}` in both services. */
  lemma RenderEmpty()
    ensures Render([]) == "{}"
    ensures LegacyRender([]) == "{}"
  {
    assert "{" + "" + "}" == "{}";
  }

  /** The legacy loop leaves one trailing comma after the joined entries. */
  lemma {:induction false} LegacyBodyTrailingComma(entries: seq<string>)
    requires |entries| > 0
    ensures LegacyBody(entries) == Join(",", entries) + ","
    decreases |entries|
  {
    var n := |entries|;
    if n == 1 {
      assert LegacyBody(entries[..0]) == "";
    } else {
      var front := entries[..n - 1];
      LegacyBodyTrailingComma(front);
      JoinSnoc(",", front, entries[n - 1]);
      assert front + [entries[n - 1]] == entries;
    }
  }

  /** An entry that ends with a closing brace, as every record does. */
  predicate Closed(e: string)
  {
    |e| > 0 && e[|e| - 1] == '}'
  }

  /** An entry the render's comma cleanup cannot damage: non-empty, closed by `}`, not
      opened by `}`, and free of `},}`. */
  predicate JoinableEntry(e: string)
  {
    |e| > 0 && e[0] != '}' && e[|e| - 1] == '}' && !Contains(e, "},}")
  }

  /** A record whose fields hold no `}` is joinable: its only `}` is the closing one. */
  lemma RecordJoinable(s: string, u: string, t: string, q: string)
    requires '}' !in s && '}' !in u && '}' !in t && '}' !in q
    ensures JoinableEntry(RecordText(s, u, t, q))
  {
    var e := RecordText(s, u, t, q);
    RecordClosesOnce(s, u, t, q);
    ContainsIff(e, "},}");
    forall i: nat
      ensures !OccursAt(e, "},}", i)
    {
      if i + 3 <= |e| {
        assert e[i..i + 3][0] == e[i];
        assert e[i] in e[..|e| - 1] by { assert e[..|e| - 1][i] == e[i]; }
      }
    }
  }

  /** In `e + x`, no `},}` starts before the last character of a joinable `e`. */
  lemma JoinableNoEarlyMatch(e: string, x: string, i: nat)
    requires JoinableEntry(e)
    requires i + 1 < |e|
    ensures !OccursAt(e + x, "},}", i)
  {
    var w := e + x;
    if i + 3 <= |e| {
      assert w[i..i + 3] == e[i..i + 3];
      ContainsIff(e, "},}");
      assert !OccursAt(e, "},}", i);
    } else {
      assert w[i + 1] == '}';
    }
  }

  /** After a joinable entry and a comma, a `},}` can only start in what follows, as
      long as that does not open with `}`. */
  lemma EntryCommaPrefix(e: string, b: string)
    requires JoinableEntry(e)
    requires |b| > 0 && b[0] != '}'
    ensures forall i: nat :: i < |e + ","| ==> !OccursAt(e + "," + b, "},}", i)
  {
    var a := e + ",";
    forall i: nat | i < |a|
      ensures !OccursAt(a + b, "},}", i)
    {
      if i + 1 < |e| {
        JoinableNoEarlyMatch(e, "," + b, i);
        assert e + ("," + b) == a + b;
      } else if i + 1 == |e| {
        assert (a + b)[i + 2] == b[0];
      } else {
        assert (a + b)[i] == ',';
      }
    }
  }

  /** The modern cleanup leaves joined joinable entries and the closing brace untouched. */
  lemma {:induction false} ReplaceJoinedClose(es: seq<string>)
    requires |es| > 0
    requires forall k :: 0 <= k < |es| ==> JoinableEntry(es[k])
    ensures ReplaceAll(Join(",", es) + "}", "},}", "}}") == Join(",", es) + "}"
    decreases |es|
  {
    var e := es[0];
    assert JoinableEntry(e);
    if |es| == 1 {
      forall i: nat | i < |e|
        ensures !OccursAt(e + "}", "},}", i)
      {
        if i + 1 < |e| {
          JoinableNoEarlyMatch(e, "}", i);
        }
      }
      ReplaceSkipsPrefix(e, "}", "},}", "}}");
    } else {
      ReplaceJoinedClose(es[1..]);
      var b := Join(",", es[1..]) + "}";
      JoinStartsWithFirst(",", es[1..]);
      EntryCommaPrefix(e, b);
      assert Join(",", es) + "}" == e + "," + b;
      ReplaceSkipsPrefix(e + ",", b, "},}", "}}");
    }
  }

  /** The legacy cleanup turns the final `},}` into `}}` and touches nothing else. */
  lemma {:induction false} ReplaceJoinedCommaClose(es: seq<string>)
    requires |es| > 0
    requires forall k :: 0 <= k < |es| ==> JoinableEntry(es[k])
    ensures ReplaceAll(Join(",", es) + ",}", "},}", "}}") == Join(",", es) + "}"
    decreases |es|
  {
    var e := es[0];
    assert JoinableEntry(e);
    if |es| == 1 {
      var a := e[..|e| - 1];
      assert e + ",}" == a + "},}";
      forall i: nat | i < |a|
        ensures !OccursAt(a + "},}", "},}", i)
      {
        JoinableNoEarlyMatch(e, ",}", i);
      }
      ReplaceSkipsPrefix(a, "},}", "},}", "}}");
      assert a + "}}" == e + "}";
    } else {
      ReplaceJoinedCommaClose(es[1..]);
      var b := Join(",", es[1..]) + ",}";
      JoinStartsWithFirst(",", es[1..]);
      EntryCommaPrefix(e, b);
      assert Join(",", es) + ",}" == e + "," + b;
      ReplaceSkipsPrefix(e + ",", b, "},}", "}}");
    }
  }

  /** The cleanup never matches at an opening brace. */
  lemma ReplaceAfterOpen(x: string)
    ensures ReplaceAll("{" + x, "},}", "}}") == "{" + ReplaceAll(x, "},}", "}}")
  {
    if |x| >= 2 {
      assert ("{" + x)[0..3][0] != "},}"[0];
    }
    ReplaceSkipsPrefix("{", x, "},}", "}}");
  }

  /** For joinable entries the modern render is exactly braces around the comma join. */
  lemma RenderIsJoin(es: seq<string>)
    requires forall k :: 0 <= k < |es| ==> JoinableEntry(es[k])
    ensures Render(es) == "{" + Join(",", es) + "}"
  {
    if |es| == 0 {
      RenderEmpty();
    } else {
      var y := Join(",", es) + "}";
      RenderUnfold(es);
      ReplaceJoinedClose(es);
      ReplaceAfterOpen(y);
      BraceAround(Join(",", es), Render(es), y);
    }
  }

  /** `Render` with the closing brace grouped onto the joined entries. */
  lemma RenderUnfold(es: seq<string>)
    ensures Render(es) == ReplaceAll("{" + (Join(",", es) + "}"), "},}", "}}")
  {
    assert "{" + Join(",", es) + "}" == "{" + (Join(",", es) + "}");
  }

  /** The legacy render of a non-empty list is the cleanup applied after the opening brace. */
  lemma LegacyRenderUnfold(es: seq<string>)
    requires |es| > 0
    ensures LegacyRender(es) == "{" + ReplaceAll(Join(",", es) + ",}", "},}", "}}")
  {
    var j := Join(",", es);
    LegacyBodyTrailingComma(es);
    assert "{" + LegacyBody(es) + "}" == "{" + (j + ",}");
    ReplaceAfterOpen(j + ",}");
  }

  /** Braces around a string that the cleanup leaves closed. */
  lemma BraceAround(j: string, x: string, y: string)
    requires x == "{" + y && y == j + "}"
    ensures x == "{" + j + "}"
  {
  }

  /** For joinable entries the legacy render also comes out as braces around the comma
      join: the one trailing comma is removed. */
  lemma LegacyRenderIsJoin(es: seq<string>)
    requires forall k :: 0 <= k < |es| ==> JoinableEntry(es[k])
    ensures LegacyRender(es) == "{" + Join(",", es) + "}"
  {
    if |es| == 0 {
      RenderEmpty();
    } else {
      LegacyRenderUnfold(es);
      ReplaceJoinedCommaClose(es);
      BraceAround(Join(",", es), LegacyRender(es), ReplaceAll(Join(",", es) + ",}", "},}", "}}"));
    }
  }

  predicate EndsWith(s: string, suffix: string)
  {
    |suffix| <= |s| && s[|s| - |suffix|..] == suffix
  }

  /** The comma cleanup preserves a closing `}}`. */
  lemma {:induction false} ReplaceKeepsDoubleClose(s: string)
    requires EndsWith(s, "}}")
    ensures EndsWith(ReplaceAll(s, "},}", "}}"), "}}")
    decreases |s|
  {
    if |s| >= 3 {
      if s[..3] == "},}" {
        var rest := s[3..];
        if |rest| >= 2 {
          assert rest[|rest| - 2..] == s[|s| - 2..];
          ReplaceKeepsDoubleClose(rest);
        } else if |rest| == 1 {
          assert rest == "}";
        }
      } else {
        assert s[1..][|s| - 3..] == s[|s| - 2..];
        ReplaceKeepsDoubleClose(s[1..]);
      }
    }
  }

  /** Whatever the fields hold, a non-empty modern render of records ends in `}}`: the
      character before the closing brace is the last record's `}`, never a comma. */
  lemma RenderClosesCleanly(es: seq<string>)
    requires |es| > 0
    requires |es[|es| - 1]| > 0 && es[|es| - 1][|es[|es| - 1]| - 1] == '}'
    ensures EndsWith(Render(es), "}}")
  {
    JoinEndsWithLast(",", es);
    var s := "{" + Join(",", es) + "}";
    assert s[|s| - 2] == '}';
    ReplaceKeepsDoubleClose(s);
  }
}

=== FILE: wrappers.dfy ===
/** The optional-value datatype used throughout the model: Python's `None` versus a value. */
module Wrappers {

  datatype Option<+T> = None | Some(value: T)
}
